=== FILE: README.md ===
# Forum backend core: validators, post handlers and CORS, in Dafny

This project models the decision logic at the core of a Go forum backend.
There are three parts:

- **Input validators and normalisers** from the utilities package
  (`backend/utils/auth_utils.go`). These are `ValidateAndSanitizeString` (NUL
  check, whitespace trim, length bound, UTF-8 check, HTML escape), the
  `ValidatePostContent`/`ValidateCommentContent` wrappers with their 200 /
  10000 / 2000 byte limits, the e-mail, username, password, numeric-id and
  UUID validators, `GetPaginationParams`, the ownership test of `IsAuthor`
  and the 24-hour expiry rule of `validateSession`.
- **The post handlers** (`backend/handlers/post.go`): `CreatePost`,
  `UpdatePost`, `DeletePost`, `GetPosts`, `GetLikedPosts` and
  `GetPostComments`. Each is a pure function from the request (HTTP method,
  decoded body, resolved session user), the posts table and the storage
  failures the request meets, to a reply: status code, response body and
  effect on the table.
- **The CORS middleware** (`backend/middleware/cors.go`): the choice of the
  `Access-Control-Allow-Origin` value, the constant headers, and the
  `OPTIONS` short-circuit.

Go strings are byte sequences (`Ascii.Bytes`), so every length is a byte
length, as Go's `len` is. Every regular expression in the validators uses
ASCII classes only, so matching bytes is the same as Go's matching of runes.
Each pattern is written as a predicate, and each validator is proved to
accept exactly that pattern's language within its length bounds.
`strconv.Atoi` is modelled exactly for a 64-bit platform: an optional sign,
at least one decimal digit, and a value inside the int64 range. Its inverse
`Format` (`strconv.Itoa`) serves as the round-trip partner.

The posts table is `PostStore.Store`: rows keyed by id plus the next id
that AUTOINCREMENT hands out. Handlers return an `Effect` that
`PostStore.Apply` performs.

Parameters stand in for what the model does not compute:

- the session lookup: the resolved user id, or none;
- storage failures, as flags;
- the current time, in nanoseconds;
- the `FRONTEND_ORIGIN` setting;
- the path chosen for an uploaded image;
- the results of the liked-posts, feed, author and comment queries, as
  functions.

Four behaviours of the code are worth stating outright:

- **Missing post on update or delete.** `UpdatePost` and `DeletePost` answer
  500 ("Failed to read post data") for a post that does not exist, because
  `sqlite.GetPost` fails on a missing row.
- **Expired sessions.** `validateSession` reports an expired session as
  `false` with no error.
- **Pagination limit.** `GetPaginationParams` puts no upper bound on `limit`.
- **`post_id` check.** `GetPostComments` accepts zero and negative `post_id`
  values: it only requires the value to parse as an integer.

## Model

| member | source | states |
|---|---|---|
| Decimal.Atoi | backend/utils/auth_utils.go:225 | accepts exactly an optional `+` or `-` sign followed by at least one decimal digit whose magnitude is at most 2^63 - 1, or 2^63 after `-`; the result is the digits' value, negated after `-` |
| Decimal.AtoiFormat | backend/utils/auth_utils.go:225-228 | parsing the decimal spelling of any int64 gives back that integer |
| Decimal.ValueOfDigits | backend/utils/auth_utils.go:225 | the value of the canonical digit string of n is n |
| Decimal.AtoiRejectsOverflow | backend/utils/auth_utils.go:225-228 | every unsigned spelling above 2^63 - 1, and every `-` spelling above 2^63, is refused rather than wrapped |
| Decimal.AtoiPlusSign | backend/utils/auth_utils.go:225 | a leading `+` on any digit string is accepted and does not change the result |
| Decimal.ValueLeadingZero | backend/utils/auth_utils.go:225 | a leading zero does not change a digit string's value |
| Decimal.AtoiLeadingZero | backend/utils/auth_utils.go:225 | leading zeros are accepted and do not change the result (`007` parses as 7) |
| Utf8.HeadLength | backend/utils/auth_utils.go:138 | an encoded sequence is at most 4 bytes; a byte below 0x80 is a one-byte sequence on its own |
| Utf8.Valid | backend/utils/auth_utils.go:138-140 | the empty string is valid; a valid non-empty string never starts with a continuation byte or with 0xC0, 0xC1 or 0xF5..0xFF; all-ASCII text is valid |
| Utf8.AsciiIsValid | backend/utils/auth_utils.go:138-140 | ASCII text always passes the UTF-8 check |
| Utf8.RejectsMalformed | backend/utils/auth_utils.go:138-140 | a stray continuation byte, a truncated lead byte, an overlong form and an encoded surrogate are refused; well-formed two-byte and four-byte characters are accepted |
| Html.EscapeByte | backend/utils/auth_utils.go:143 | only `& ' < > "` are replaced, each by an entity of at most 5 bytes that contains no markup byte |
| Html.Escape | backend/utils/auth_utils.go:143 | escaped output never contains `<`, `>`, `"` or `'`, and is at least as long as its input and at most 5 times as long |
| Html.UnescapeEscape | backend/utils/auth_utils.go:143 | escaping loses nothing: decoding the five entities gives back the input |
| Html.EscapePlain | backend/utils/auth_utils.go:143 | text without any of the five special bytes is left unchanged |
| Html.EscapeAppend | backend/utils/auth_utils.go:143 | escaping distributes over concatenation |
| Sanitize.LeadingSpaces | backend/utils/auth_utils.go:126 | counts the maximal run of white space at the start |
| Sanitize.TrailingSpaces | backend/utils/auth_utils.go:126 | counts the maximal run of white space at the end |
| Sanitize.TrimSpace | backend/utils/auth_utils.go:126 | the result is a slice of the input with only white space dropped on either side; it neither starts nor ends with white space; it is empty exactly when the input is all white space |
| Sanitize.TrimSpaceIdempotent | backend/utils/auth_utils.go:126 | trimming twice is the same as trimming once |
| Sanitize.TrimSpaceUnpads | backend/utils/auth_utils.go:126 | white space padded around text that does not start or end with white space is removed exactly |
| Sanitize.ValidateAndSanitizeString | backend/utils/auth_utils.go:119-146 | a NUL byte anywhere in the raw input is refused first; then all-space input is the "empty" error, a trimmed length above maxLength the length error, and invalid UTF-8 the encoding error, each exactly in that case; otherwise the output is the HTML escape of the trimmed input, so unescaping restores it, it has no raw markup byte, and it is at most 5*maxLength bytes |
| Sanitize.NulCheckedFirst | backend/utils/auth_utils.go:120-130 | input made of white space and NUL bytes reports the NUL, not emptiness |
| Sanitize.ValidatePostContent | backend/utils/auth_utils.go:198-208 | passes exactly when the title passes with limit 200 and the content with limit 10000; a failure returns the title check's own error when the title fails, and the content check's own error otherwise |
| Sanitize.ValidateCommentContent | backend/utils/auth_utils.go:210-217 | passes exactly when the trimmed comment is 1..2000 bytes of valid UTF-8 without NUL; a failure returns the comment check's own error, under the field "comment" |
| Validators.IndexOf | backend/utils/auth_utils.go:151 | finds the first occurrence of a byte, or reports that there is none |
| Validators.LastIndexOf | backend/utils/auth_utils.go:151 | finds the last occurrence of a byte, or reports that there is none |
| Validators.ValidateEmail | backend/utils/auth_utils.go:149-158 | every refusal is the single "invalid email format" error |
| Validators.ValidateEmailMatchesPattern | backend/utils/auth_utils.go:151-157 | the validator accepts exactly local@domain.tld: a non-empty local part over `[a-zA-Z0-9._%+-]`, a non-empty domain over `[a-zA-Z0-9.-]`, and a top-level domain of at least two ASCII letters |
| Validators.AcceptedEmailHasOneAt | backend/utils/auth_utils.go:151 | an accepted address contains exactly one `@` |
| Validators.ValidateUsername | backend/utils/auth_utils.go:161-174 | accepts exactly names of 3 to 30 bytes over `[A-Za-z0-9_-]`; a name that fails the pattern (including the empty name) gets the charset error, and only a pattern-conforming name gets the length error |
| Validators.ValidatePassword | backend/utils/auth_utils.go:177-195 | too short exactly below 8 bytes, too long exactly above 128; otherwise accepted exactly when there is at least one ASCII letter and one ASCII digit |
| Validators.ValidateId | backend/utils/auth_utils.go:220-235 | empty input, a string `Atoi` refuses, and a value <= 0 are the three errors, in that order and each naming the field; on success the id is the parsed value and is positive |
| Validators.ValidateIdFormat | backend/utils/auth_utils.go:220-235 | every positive int64 written in decimal is accepted as itself |
| Validators.ValidateIdRefusesNonPositive | backend/utils/auth_utils.go:230-232 | zero and negative integers are refused as not positive |
| Validators.HexRunByPosition | backend/utils/auth_utils.go:239 | a run of lower-case hex digits forms a hex group of its length |
| Validators.UuidPatternByPosition | backend/utils/auth_utils.go:239 | the 8-4-4-4-12 layout holds exactly when dashes sit at positions 8, 13, 18 and 23 and every other position holds lower-case hex |
| Validators.ValidateUuid | backend/utils/auth_utils.go:238-246 | accepts exactly the lower-case 8-4-4-4-12 hex layout |
| Validators.UuidRefusesUpperCase | backend/utils/auth_utils.go:239 | any upper-case letter makes the UUID invalid |
| Validators.UuidIgnoresVersionAndVariant | backend/utils/auth_utils.go:239 | the version and variant nibbles are not checked: any lower-case hex digit is accepted there |
| Pagination.GetPaginationParams | backend/utils/auth_utils.go:102-114 | page and limit are always at least 1; a positive value passes through unchanged, with no upper clamp; a missing, malformed, zero or negative value gives 1 and 10 |
| Pagination.PaginationRoundTrip | backend/utils/auth_utils.go:102-114 | any positive page and limit written in decimal are read back as given |
| Pagination.PaginationDefaults | backend/utils/auth_utils.go:103-111 | absent, zero and negative parameters give the defaults 1 and 10 |
| Auth.Since | backend/utils/auth_utils.go:85 | the elapsed time is exact inside the int64 Duration range, MaxInt64 above it and MinInt64 below it |
| Auth.ExpiredExactly | backend/utils/auth_utils.go:85-87 | a session is expired exactly when more than 24 hours have passed, despite saturation |
| Auth.ExpiryMonotonic | backend/utils/auth_utils.go:85-87 | once expired, a session stays expired |
| Auth.ValidateSession | backend/utils/auth_utils.go:73-90 | a failed lookup is an error; otherwise the result is true exactly when at most 24 hours have passed and the user id is positive; an expired session is false without error |
| Auth.SessionLifetimeBoundary | backend/utils/auth_utils.go:84-87 | a session is valid after 23 h and at exactly 24 h, and invalid 1 ns after 24 h and at 25 h |
| Auth.IsAuthor | backend/utils/auth_utils.go:32-46 | a storage failure is an error; a missing row is "not author"; otherwise the result is true exactly when the stored owner is the user, looked up in the posts or the comments table according to `isPost` |
| Auth.IsAuthorUsesItsTable | backend/utils/auth_utils.go:34-37 | owning comment id says nothing about post id |
| PostStore.Apply | backend/handlers/post.go:128-292 | the writes of the insert (line 128), the update (line 244) and the delete (line 286): applying an effect keeps the id invariant and leaves every row but its target unchanged; an insert stores the given post under the fresh next id; an update of an existing row replaces only title and content, keeping owner, image and categories; an update of a missing row changes nothing; a delete removes its row |
| PostStore.GetPost | backend/handlers/post.go:233-237 | a read succeeds exactly when storage works and the row exists |
| ImageUpload.ReadLimited | backend/handlers/post.go:90-92 | the limited read returns a prefix of at most 20 MiB + 1 bytes, and the whole upload when it fits |
| ImageUpload.WithinLimitExactly | backend/handlers/post.go:97-100 | the check on the limited read accepts exactly uploads of at most 20 MiB (20<<20 bytes) |
| ImageUpload.SavedBytesAsWritten | backend/handlers/post.go:112-115 | the limited read and the second copy split the upload between them, so for an accepted upload the second copy saves nothing |
| ImageUpload.AsWrittenSavesEmptyFile | backend/handlers/post.go:90-115 | as written, every accepted upload is saved as an empty file |
| ImageUpload.AsWrittenLosesPicture | backend/handlers/post.go:90-115 | a one-byte picture is accepted, and the as-written code saves something other than it |
| ImageUpload.SavedBytes | backend/handlers/post.go:90-117 | when the read buffer is written out, the saved file equals the accepted upload |
| PostHandlers.StoreImage | backend/handlers/post.go:85-118 | with no image part the step succeeds with no image; a failed read gets 500 "Failed to read image"; a larger-than-20-MiB image gets 400; every failure leaves the table unchanged; a stored image holds the uploaded bytes (the corrected write of the finding below) |
| PostHandlers.InsertPost | backend/handlers/post.go:79-136 | without a signed-in user the answer is 401; an image failure is answered with the image step's reply; a failed category step gets 500 "Failed to resolve categories" and a failed insert 500 "Failed to create post"; a signed-in request without an image is created when those steps succeed; anything but 201 leaves the table unchanged; a created post is owned by the session user, holds the given text and the uploaded image bytes unchanged (the corrected write of the finding below), and is reported under the next id |
| PostHandlers.CreatePost | backend/handlers/post.go:22-137 | a method other than POST gets 405; a form that does not parse gets 400 "Could not parse form data" whatever the session; anything but 201 leaves the table unchanged; 201 means a signed-in user, and the inserted post is owned by that user under the next id |
| PostHandlers.UpdatePost | backend/handlers/post.go:212-251 | a method other than PUT gets 405; for a decoded, signed-in PUT a failed read or a missing post gets 500 "Failed to read post data", and the owner's failed write 500 "Failed to update post"; anything but 200 leaves the table unchanged; the only possible change is an update of the decoded post that the session user owns |
| PostHandlers.DeletePost | backend/handlers/post.go:253-293 | a method other than DELETE gets 405; for a decoded, signed-in DELETE a failed read or a missing post gets 500 "Failed to read post data", and the owner's failed write 500 "Failed to delete post"; anything but 200 leaves the table unchanged; the only possible change is deleting the session user's own post, answered "Post deleted" |
| PostHandlers.WithAvatars | backend/handlers/post.go:196-206 | the list fails exactly when some author lookup fails; otherwise it keeps the order and length and only sets each post's avatar |
| PostHandlers.GetLikedPosts | backend/handlers/post.go:173-209 | never changes the table; a method other than GET gets 405; a request without a signed-in user gets 401; for a signed-in GET, a failed liked-posts query gets 500 "Failed to fetch liked posts", a failed author lookup 500 "Failed to fetch post user information", and otherwise 200 with exactly the queried posts, in order, each carrying its author's avatar |
| PostHandlers.GetPosts | backend/handlers/post.go:140-170 | never changes the table; a method other than GET gets 405; for a GET, a failed feed query gets 500 "Failed to fetch posts", a failed author lookup 500 "Failed to fetch post user information", and otherwise 200 with exactly the queried posts, in order, each carrying its author's avatar |
| PostHandlers.GetPostComments | backend/handlers/post.go:295-322 | never changes the table; a missing `post_id` and a non-integer `post_id` each get 400 with their own message; a failed comment query gets 500 "Failed to fetch comments"; 200 exactly for a GET whose `post_id` parses and whose query succeeds |
| PostRules.OnlyOwnerChangesPost | backend/handlers/post.go:239-242 | no update or delete changes an existing post unless the signed-in session user owns it |
| PostRules.CreateKeepsExistingPosts | backend/handlers/post.go:127-136 | creating a post never changes an existing row and keeps the id invariant |
| PostRules.UpdateOwnershipGuard | backend/handlers/post.go:239-250 | a decoded, authenticated PUT on a readable post gets 403 exactly when the owner differs, with the table unchanged; for the owner, without a write failure, it gets 200 echoing the request and updates title and content |
| PostRules.DeleteOwnershipGuard | backend/handlers/post.go:281-292 | 403 exactly on owner mismatch, with the table unchanged; for the owner the post is removed, everything else is kept, and the reply is 200 "Post deleted" |
| PostRules.AnonymousRequestsNeverReachTheTable | backend/handlers/post.go:226-230 | without a signed-in user, update and delete get 401 whatever the table and the storage: no lookup, no change |
| PostRules.DecodingPrecedesAuthentication | backend/handlers/post.go:218-223 | a body that does not decode gets 400 before the session is consulted |
| PostRules.GuardAgreesWithIsAuthor | backend/handlers/post.go:239-242 | the handler's 403 coincides with `IsAuthor` reporting false on the posts table |
| PostRules.CreateValidatesBeforeAuthentication | backend/handlers/post.go:38-42 | invalid title or content gets 400 with the validator's error even for anonymous callers |
| PostRules.CreatePostAfterValidation | backend/handlers/post.go:44-136 | once a POST is parsed and its text passes validation, the answer is the insertion step's answer for the escaped, trimmed title and content; a signed-in post without an image is then created when the category and insert steps succeed |
| PostRules.CreateImageBound | backend/handlers/post.go:97-100 | for a signed-in caller whose image, category and insert steps all succeed, an image of at most 20 MiB is created and a larger one gets 400 "Image exceeds 20MB limit" |
| PostRules.CreateStoresSanitisedPost | backend/handlers/post.go:44-55 | a created post stores the escaped title and content, which unescape to the trimmed input and hold no raw markup; it stores the uploaded image unchanged |
| PostRules.UpdateStoresTextAsSent | backend/handlers/post.go:244 | an update stores title and content exactly as sent, with no trimming or escaping, and keeps the owner |
| PostRules.CommentsAcceptAnyInteger | backend/handlers/post.go:301-311 | any int64 `post_id`, zero and negatives included, reaches the comment query; `abc` gets 400 |
| PostRules.DeleteScenario | backend/handlers/post.go:274-292 | a non-owner's delete gets 403 and leaves the table as it was; the owner's delete gets 200 and removes the post |
| Cors.AllowedOrigin | backend/middleware/cors.go:10-13 | the configured origin is the setting, or `http://localhost:8000` when the setting is empty; it is never empty |
| Cors.AllowOrigin | backend/middleware/cors.go:18-31 | the header value is always one of the configured origin, `http://localhost:8000` and `http://127.0.0.1:8000`; a trusted non-empty Origin is echoed, and every other case gets the configured origin |
| Cors.Handle | backend/middleware/cors.go:15-42 | Allow-Methods, Allow-Headers and Allow-Credentials="true" are the same constants on every request; OPTIONS is answered with 200 and every other method is forwarded |
| Cors.Serve | backend/middleware/cors.go:37-42 | OPTIONS gets 200 and the next handler runs zero times; otherwise the next handler runs exactly once and its status is the reply |
| Cors.ForeignOriginNeverEchoed | backend/middleware/cors.go:29-30 | an untrusted Origin is never echoed back |
| Cors.NoOriginGetsConfiguredOrigin | backend/middleware/cors.go:19-21 | with no Origin header the configured origin is sent, which defaults to the local front end |
| Cors.LoopbackAlwaysEchoed | backend/middleware/cors.go:26-27 | `http://127.0.0.1:8000` is echoed whatever origin is configured |

## Findings

| source | as written | input that shows it | evidently intended | confidence | as-written member | corrected member |
|---|---|---|---|---|---|---|
| backend/handlers/post.go:90-115 | the upload is first copied into `buf` through a reader limited to 20 MiB + 1 bytes, which consumes it; then `io.Copy(dst, file)` copies from the same, already-consumed reader, so `buf` is never written out | any accepted image, for example a one-byte upload `0x89`: the saved file is empty | write the bytes read into `buf` (or rewind the file first), so the saved file equals the accepted upload | not executed; high (nothing rewinds the reader between the two copies) | ImageUpload.AsWrittenSavesEmptyFile | ImageUpload.SavedBytes |

`PostHandlers.CreatePost` uses the corrected behaviour. `PostRules.CreateStoresSanitisedPost`
proves that a created post holds the uploaded bytes.

## Left out

- PostHandlers.StoreImage: models the corrected image write. The saved file holds the accepted upload, where `post.go:112` as written saves an empty file (see "## Findings"; the as-written behaviour is `ImageUpload.SavedBytesAsWritten`).
- PostHandlers.InsertPost: stores the image that the corrected write saves, not the empty file of `post.go:112`, for the same reason.
- PostHandlers.CreatePost: builds on `InsertPost`, so a created post refers to an image file holding the upload, not the empty file the code as written leaves.
- PostRules.CreateStoresSanitisedPost: its image clause states the corrected write; with the code as written the saved file is empty (`ImageUpload.AsWrittenSavesEmptyFile`).
- Password hashing and checking (`HashPassword`, `CheckPasswordHash`): bcrypt is a foreign cryptographic library.
- All SQL: `sqlite.GetPost`, `UpdatePost`, `DeletePost`, `CreatePost`, `GetOrCreateCategoryIDs`, `GetPostsLikedByUser`, `GetPosts`, `GetPostComments`, `GetUserByID` and the session queries. Their source is not part of this model. The handlers receive their outcomes as parameters, so no reaction, comment-threading or offset-pagination semantics are modelled.
- Session resolution (`RequireAuth`, `GetUserIDFromSession`, cookie reading): modelled as the resolved user id or none. `RequireAuth` is not part of this model.
- Multipart and JSON decoding, the image file name built from the clock and the file extension, file creation, logging and JSON response writing: I/O plumbing. Decoding is modelled as "decoded value or none". Category-name parsing is left out because it cannot change the status code.
- Files written before a later failure: an image saved before a later category or insert failure stays on disk. The model tracks the posts table, not the file system.
- The JSON encoding of an empty list: the list handlers start from a nil slice, so an empty result is sent as `null` rather than `[]`. The model's `PostList` carries the sequence, not its encoding.
- Clock and environment reads (`time.Since`, `os.Getenv`): modelled as parameters.
- Sanitize.TrimSpace: trims ASCII white space only. Go's `strings.TrimSpace` also removes Unicode white space such as U+00A0 and U+3000.
- Sanitize.ValidateAndSanitizeString: inherits the ASCII-only trim, so input made only of Unicode white space (for example U+00A0, bytes C2 A0) is accepted here, where Go reports it as empty.
- Sanitize.ValidatePostContent: the same ASCII-only trim decides the verdict on title and content.
- Sanitize.ValidateCommentContent: the same ASCII-only trim decides the verdict on the comment.
- The scan of the TEXT `user_id` column into an `int` in `validateSession`: a type mismatch in the query, not a property of the expiry rule. The model takes the scanned row as given.
- URL decoding of query parameters: the model receives decoded values, and an absent parameter is the empty string.

=== FILE: ascii.dfy ===
/** Bytes of Go strings and the ASCII character classes the validators use. */
module Ascii {

  /** One byte of a Go string; `len(s)` in Go is the length of the byte sequence. */
  type Byte = b: int | 0 <= b < 256

  type Bytes = seq<Byte>

  /** The bytes of an ASCII literal, so that lemmas can name concrete inputs. */
  function FromString(s: string): Bytes
    requires forall i :: 0 <= i < |s| ==> s[i] as int < 128
  {
    seq(|s|, i requires 0 <= i < |s| => s[i] as int)
  }

  predicate IsUpper(b: Byte) { 'A' as int <= b <= 'Z' as int }

  predicate IsLower(b: Byte) { 'a' as int <= b <= 'z' as int }

  /** The regular-expression class `[a-zA-Z]`. */
  predicate IsLetter(b: Byte) { IsUpper(b) || IsLower(b) }

  /** The regular-expression class `[0-9]`. */
  predicate IsDigit(b: Byte) { '0' as int <= b <= '9' as int }

  /** The regular-expression class `[0-9a-f]`: lower-case hexadecimal only. */
  predicate IsLowerHex(b: Byte) { IsDigit(b) || 'a' as int <= b <= 'f' as int }

  /** The ASCII white space that Go's `strings.TrimSpace` removes:
      tab, line feed, vertical tab, form feed, carriage return and space. */
  predicate IsSpace(b: Byte) { b == ' ' as int || 9 <= b <= 13 }

  predicate IsAsciiByte(b: Byte) { b < 128 }

  /** Every byte of `s` is in the class `p`. */
  predicate AllIn(s: Bytes, p: Byte -> bool) {
    forall i :: 0 <= i < |s| ==> p(s[i])
  }

  /** Some byte of `s` is in the class `p`. */
  predicate AnyIn(s: Bytes, p: Byte -> bool) {
    exists i :: 0 <= i < |s| && p(s[i])
  }

  predicate Contains(s: Bytes, b: Byte) {
    exists i :: 0 <= i < |s| && s[i] == b
  }
}

=== FILE: auth.dfy ===
/** The authorisation helpers of the utilities package: the 24-hour session
    expiry rule of `validateSession` and the ownership test of `IsAuthor`. */
module Auth {
  import opened Wrappers
  import opened Decimal

  /** User identifiers are the TEXT ids of the users table. */
  type UserId = string

  /** Durations and instants are in nanoseconds, as Go's `time.Duration`. */
  const Hour: int := 3_600_000_000_000
  const SessionLifetime: int := 24 * Hour

  /** `time.Since(createdAt)`, that is `now.Sub(createdAt)`, which saturates
      at the bounds of a 64-bit Duration instead of wrapping. */
  function Since(createdAt: int, now: int): (d: int)
    ensures InInt64(d)
    ensures InInt64(now - createdAt) ==> d == now - createdAt
    ensures now - createdAt > MaxInt64 ==> d == MaxInt64
    ensures now - createdAt < MinInt64 ==> d == MinInt64
  {
    var diff := now - createdAt;
    if diff > MaxInt64 then MaxInt64
    else if diff < MinInt64 then MinInt64
    else diff
  }

  predicate Expired(createdAt: int, now: int) {
    Since(createdAt, now) > SessionLifetime
  }

  /** Saturation never changes the verdict: a session is expired exactly when
      more than 24 hours have passed since it was created. */
  lemma ExpiredExactly(createdAt: int, now: int)
    ensures Expired(createdAt, now) <==> now - createdAt > SessionLifetime
  {
  }

  /** Validity only runs out: a session valid at some instant was valid at
      every earlier instant. */
  lemma ExpiryMonotonic(createdAt: int, earlier: int, later: int)
    requires earlier <= later
    ensures Expired(createdAt, earlier) ==> Expired(createdAt, later)
  {
  }

  /** A session row as the query scans it. */
  datatype SessionRow = SessionRow(userId: int, createdAt: int)

  /** The query found no row, or the storage or the scan failed. */
  datatype LookupError = LookupFailed

  /** `validateSession` after its query: a failed lookup is an error; an
      expired session is `false` without error; otherwise the verdict is
      whether the stored user id is positive. */
  function ValidateSession(row: Option<SessionRow>, now: int): (r: Result<bool, LookupError>)
    ensures r.Err? <==> row.None?
    ensures r == Ok(true) <==>
              row.Some? && now - row.value.createdAt <= SessionLifetime && row.value.userId > 0
    ensures row.Some? && now - row.value.createdAt > SessionLifetime ==> r == Ok(false)
  {
    match row
    case None => Err(LookupFailed)
    case Some(s) =>
      ExpiredExactly(s.createdAt, now);
      if Expired(s.createdAt, now) then Ok(false) else Ok(s.userId > 0)
  }

  /** A session created at `t0` still validates 23 hours later and at the
      24-hour mark itself, and no longer one nanosecond after it or 25 hours
      later. */
  lemma SessionLifetimeBoundary(userId: int, t0: int)
    requires userId > 0
    ensures ValidateSession(Some(SessionRow(userId, t0)), t0 + 23 * Hour) == Ok(true)
    ensures ValidateSession(Some(SessionRow(userId, t0)), t0 + 24 * Hour) == Ok(true)
    ensures ValidateSession(Some(SessionRow(userId, t0)), t0 + 24 * Hour + 1) == Ok(false)
    ensures ValidateSession(Some(SessionRow(userId, t0)), t0 + 25 * Hour) == Ok(false)
  {
  }

  /** The owner columns of the two tables `IsAuthor` can consult. */
  datatype Authors = Authors(posts: map<int, UserId>, comments: map<int, UserId>)

  function Table(authors: Authors, isPost: bool): map<int, UserId> {
    if isPost then authors.posts else authors.comments
  }

  /** `IsAuthor`: a storage failure is an error; a missing row means "not
      the author", not an error; otherwise the stored owner is compared with
      the user. */
  function IsAuthor(authors: Authors, storageFails: bool, userId: UserId, id: int, isPost: bool)
    : (r: Result<bool, LookupError>)
    ensures r.Err? <==> storageFails
    ensures r == Ok(true) <==>
              !storageFails && id in Table(authors, isPost) && Table(authors, isPost)[id] == userId
    ensures !storageFails && id !in Table(authors, isPost) ==> r == Ok(false)
  {
    if storageFails then Err(LookupFailed)
    else
      var table := if isPost then authors.posts else authors.comments;
      if id !in table then Ok(false) else Ok(table[id] == userId)
  }

  /** Posts and comments are looked up in their own tables: owning comment
      `id` says nothing about post `id`. */
  lemma IsAuthorUsesItsTable(userId: UserId, other: UserId, id: int)
    requires userId != other
    ensures IsAuthor(Authors(map[id := other], map[id := userId]), false, userId, id, true) == Ok(false)
    ensures IsAuthor(Authors(map[id := other], map[id := userId]), false, userId, id, false) == Ok(true)
  {
  }
}

=== FILE: cors.dfy ===
/** The CORS middleware: which value `Access-Control-Allow-Origin` gets, the
    constant headers set on every request, and the short-circuit of
    pre-flight `OPTIONS` requests. Header values are compared as strings. */
module Cors {

  const DefaultOrigin: string := "http://localhost:8000"
  const LoopbackOrigin: string := "http://127.0.0.1:8000"

  const AllowMethods: string := "GET, POST, PUT, DELETE, OPTIONS"
  const AllowHeaders: string := "Content-Type, Authorization"
  const AllowCredentials: string := "true"

  /** The configured origin: the `FRONTEND_ORIGIN` setting, or the local
      front end when the setting is empty. */
  function AllowedOrigin(setting: string): (origin: string)
    ensures origin != ""
    ensures setting != "" ==> origin == setting
    ensures setting == "" ==> origin == DefaultOrigin
  {
    if setting == "" then DefaultOrigin else setting
  }

  /** The origins whose value is echoed back. */
  predicate Trusted(allowed: string, origin: string) {
    origin == allowed || origin == DefaultOrigin || origin == LoopbackOrigin
  }

  /** The value of `Access-Control-Allow-Origin` for a request whose
      `Origin` header is `origin` (empty when absent). */
  function AllowOrigin(allowed: string, origin: string): (value: string)
    ensures value == allowed || value == DefaultOrigin || value == LoopbackOrigin
    ensures origin != "" && Trusted(allowed, origin) ==> value == origin
    ensures !(origin != "" && Trusted(allowed, origin)) ==> value == allowed
  {
    if origin == "" then allowed
    else if origin == allowed then origin
    else if origin == DefaultOrigin || origin == LoopbackOrigin then origin
    else allowed
  }

  /** The CORS headers one request gets. */
  datatype CorsHeaders = CorsHeaders(allowOrigin: string, allowMethods: string,
                                     allowHeaders: string, allowCredentials: string)

  /** What the middleware does with one request: it sets the headers and
      either answers 200 itself or passes the request on to the next
      handler. */
  datatype Decision =
    | Answer(headers: CorsHeaders, status: int)
    | Forward(headers: CorsHeaders)

  function Handle(allowed: string, origin: string, httpMethod: string): (d: Decision)
    ensures d.headers.allowOrigin == AllowOrigin(allowed, origin)
    ensures d.headers.allowMethods == AllowMethods && d.headers.allowHeaders == AllowHeaders
    ensures d.headers.allowCredentials == "true"
    ensures d.Forward? <==> httpMethod != "OPTIONS"
    ensures d.Answer? ==> d.status == 200
  {
    var headers := CorsHeaders(AllowOrigin(allowed, origin), AllowMethods, AllowHeaders, AllowCredentials);
    if httpMethod == "OPTIONS" then Answer(headers, 200) else Forward(headers)
  }

  /** The middleware wrapped around a next handler, given as the status that
      handler answers with: an `OPTIONS` request gets 200 and the next
      handler runs zero times; any other request gets the next handler's
      status and it runs exactly once. */
  function Serve(setting: string, origin: string, httpMethod: string, nextStatus: int)
    : (r: (CorsHeaders, int, nat))
    ensures httpMethod == "OPTIONS" ==> r.1 == 200 && r.2 == 0
    ensures httpMethod != "OPTIONS" ==> r.1 == nextStatus && r.2 == 1
    ensures r.0.allowOrigin in {AllowedOrigin(setting), DefaultOrigin, LoopbackOrigin}
  {
    match Handle(AllowedOrigin(setting), origin, httpMethod)
    case Answer(headers, status) => (headers, status, 0)
    case Forward(headers) => (headers, nextStatus, 1)
  }

  /** An origin outside the three trusted ones is never echoed, however the
      front end is configured. */
  lemma ForeignOriginNeverEchoed(setting: string, origin: string)
    requires origin != AllowedOrigin(setting) && origin != DefaultOrigin && origin != LoopbackOrigin
    ensures AllowOrigin(AllowedOrigin(setting), origin) != origin
  {
  }

  /** With no `Origin` header the configured origin is sent; with the default
      configuration that is the local front end. */
  lemma NoOriginGetsConfiguredOrigin(setting: string)
    ensures AllowOrigin(AllowedOrigin(setting), "") == AllowedOrigin(setting)
    ensures AllowOrigin(AllowedOrigin(""), "") == DefaultOrigin
  {
  }

  /** The loopback front end is echoed even when another origin is configured. */
  lemma LoopbackAlwaysEchoed(setting: string)
    ensures AllowOrigin(AllowedOrigin(setting), LoopbackOrigin) == LoopbackOrigin
  {
  }
}

=== FILE: decimal.dfy ===
/** Go's `strconv.Atoi` on a 64-bit platform, and its inverse `strconv.Itoa`.

    `Atoi` accepts an optional `+` or `-` sign followed by at least one
    decimal digit (no spaces, no underscores, no base prefix) whose value
    fits in a signed 64-bit integer; every other input is an error. */
module Decimal {
  import opened Ascii
  import opened Wrappers

  const MinInt64: int := -0x8000_0000_0000_0000
  const MaxInt64: int := 0x7FFF_FFFF_FFFF_FFFF

  predicate InInt64(v: int) { MinInt64 <= v <= MaxInt64 }

  predicate IsSign(b: Byte) { b == '+' as int || b == '-' as int }

  function DigitValue(b: Byte): nat
    requires IsDigit(b)
  {
    b - '0' as int
  }

  /** The value of a digit string, read left to right as `n = n*10 + d`. */
  function Value(s: Bytes): nat
    requires AllIn(s, IsDigit)
  {
    if |s| == 0 then 0 else 10 * Value(s[..|s| - 1]) + DigitValue(s[|s| - 1])
  }

  /** The bytes after an optional leading sign. */
  function Unsigned(s: Bytes): (u: Bytes)
    requires |s| > 0
    ensures |u| + 1 >= |s|
  {
    if IsSign(s[0]) then s[1..] else s
  }

  /** `strconv.Atoi`. A `-` sign admits magnitudes up to 2^63, every other
      spelling magnitudes up to 2^63 - 1. */
  function Atoi(s: Bytes): (r: Option<int>)
    ensures r.Some? ==> InInt64(r.value)
    ensures r.Some? <==>
              && |s| > 0 && |Unsigned(s)| > 0 && AllIn(Unsigned(s), IsDigit)
              && (if s[0] == '-' as int then Value(Unsigned(s)) <= -MinInt64 else Value(Unsigned(s)) <= MaxInt64)
    ensures r.Some? && s[0] == '-' as int ==> r.value == 0 - Value(Unsigned(s))
    ensures r.Some? && s[0] != '-' as int ==> r.value == Value(Unsigned(s))
  {
    if |s| == 0 then None
    else
      var digits := Unsigned(s);
      if |digits| == 0 || !AllIn(digits, IsDigit) then None
      else
        var v: int := if s[0] == '-' as int then 0 - Value(digits) else Value(digits);
        if InInt64(v) then Some(v) else None
  }

  /** The shortest decimal spelling of `n`: no sign, no leading zero. */
  function Digits(n: nat): (r: Bytes)
    ensures |r| >= 1 && AllIn(r, IsDigit)
    ensures |r| > 1 ==> r[0] != '0' as int
  {
    if n < 10 then [n + '0' as int] else Digits(n / 10) + [n % 10 + '0' as int]
  }

  /** `strconv.Itoa`. */
  function Format(n: int): (r: Bytes)
    ensures |r| >= 1
  {
    if n < 0 then ['-' as int] + Digits(0 - n) else Digits(n)
  }

  lemma {:induction false} ValueOfDigits(n: nat)
    ensures Value(Digits(n)) == n
  {
    if n >= 10 {
      var d := Digits(n);
      assert d[..|d| - 1] == Digits(n / 10);
      ValueOfDigits(n / 10);
    }
  }

  /** Round trip: parsing the canonical spelling of any 64-bit integer gives it back. */
  lemma AtoiFormat(n: int)
    requires InInt64(n)
    ensures Atoi(Format(n)) == Some(n)
  {
    var s := Format(n);
    if n < 0 {
      ValueOfDigits(-n);
      assert Unsigned(s) == Digits(-n);
    } else {
      ValueOfDigits(n);
      assert !IsSign(s[0]);
    }
  }

  /** A value outside the 64-bit range is a range error, not a wrapped value:
      a magnitude above 2^63 - 1 is refused unsigned, one above 2^63 with a
      `-` sign. */
  lemma AtoiRejectsOverflow(n: nat)
    requires n > MaxInt64
    ensures Atoi(Digits(n)) == None
    ensures n > -MinInt64 ==> Atoi(['-' as int] + Digits(n)) == None
  {
    ValueOfDigits(n);
    assert Unsigned(['-' as int] + Digits(n)) == Digits(n);
  }

  /** A leading `+` is accepted and changes nothing. */
  lemma AtoiPlusSign(d: Bytes)
    requires |d| > 0 && AllIn(d, IsDigit)
    ensures Atoi(['+' as int] + d) == Atoi(d)
  {
    assert Unsigned(['+' as int] + d) == d;
  }

  /** A leading zero adds nothing to a digit string's value. */
  lemma {:induction false} ValueLeadingZero(d: Bytes)
    requires AllIn(d, IsDigit)
    ensures AllIn(['0' as int] + d, IsDigit) && Value(['0' as int] + d) == Value(d)
  {
    var z := ['0' as int] + d;
    assert AllIn(z, IsDigit) by {
      forall i | 0 <= i < |z| ensures IsDigit(z[i]) {
        if i > 0 { assert z[i] == d[i - 1]; }
      }
    }
    if |d| > 0 {
      var front := d[..|d| - 1];
      assert z[..|z| - 1] == ['0' as int] + front;
      assert AllIn(front, IsDigit) by {
        forall i | 0 <= i < |front| ensures IsDigit(front[i]) { assert front[i] == d[i]; }
      }
      ValueLeadingZero(front);
    }
  }

  /** Leading zeros are accepted: `007` parses as 7. */
  lemma AtoiLeadingZero(d: Bytes)
    requires |d| > 0 && AllIn(d, IsDigit)
    ensures Atoi(['0' as int] + d) == Atoi(d)
  {
    ValueLeadingZero(d);
  }
}

=== FILE: html.dfy ===
/** Go's `html.EscapeString`: exactly five bytes are replaced by entities,
    `&` by `&amp;`, `'` by `&#39;`, `<` by `&lt;`, `>` by `&gt;` and `"` by
    `&#34;`; every other byte is copied. `Unescape` is its inverse over
    those five entities. */
module Html {
  import opened Ascii

  const Amp: Byte := '&' as int
  const Apos: Byte := '\'' as int
  const Lt: Byte := '<' as int
  const Gt: Byte := '>' as int
  const Quot: Byte := '"' as int

  const AmpEntity: Bytes := FromString("&amp;")
  const AposEntity: Bytes := FromString("&#39;")
  const LtEntity: Bytes := FromString("&lt;")
  const GtEntity: Bytes := FromString("&gt;")
  const QuotEntity: Bytes := FromString("&#34;")

  /** The bytes that may open a tag or close an attribute value. */
  predicate IsMarkup(b: Byte) { b == Lt || b == Gt || b == Quot || b == Apos }

  predicate IsEscaped(b: Byte) { IsMarkup(b) || b == Amp }

  function EscapeByte(b: Byte): (r: Bytes)
    ensures 1 <= |r| <= 5
    ensures !IsEscaped(b) <==> r == [b]
    ensures AllIn(r, (c: Byte) => !IsMarkup(c))
  {
    if b == Amp then AmpEntity
    else if b == Apos then AposEntity
    else if b == Lt then LtEntity
    else if b == Gt then GtEntity
    else if b == Quot then QuotEntity
    else [b]
  }

  function Escape(s: Bytes): (r: Bytes)
    ensures |s| <= |r| <= 5 * |s|
    ensures forall i :: 0 <= i < |r| ==> !IsMarkup(r[i])
    decreases |s|
  {
    if |s| == 0 then [] else EscapeByte(s[0]) + Escape(s[1..])
  }

  predicate StartsWith(s: Bytes, p: Bytes) { |p| <= |s| && s[..|p|] == p }

  /** Decodes the five entities `Escape` produces; any other byte is kept. */
  function Unescape(s: Bytes): Bytes
    decreases |s|
  {
    if |s| == 0 then []
    else if StartsWith(s, AmpEntity) then [Amp] + Unescape(s[5..])
    else if StartsWith(s, AposEntity) then [Apos] + Unescape(s[5..])
    else if StartsWith(s, LtEntity) then [Lt] + Unescape(s[4..])
    else if StartsWith(s, GtEntity) then [Gt] + Unescape(s[4..])
    else if StartsWith(s, QuotEntity) then [Quot] + Unescape(s[5..])
    else [s[0]] + Unescape(s[1..])
  }

  lemma UnescapeEscapedByte(b: Byte, rest: Bytes)
    ensures Unescape(EscapeByte(b) + rest) == [b] + Unescape(rest)
  {
    var s := EscapeByte(b) + rest;
    if b == Amp {
      assert s[..5] == AmpEntity && s[5..] == rest;
    } else if b == Apos {
      assert s[..5] == AposEntity && s[5..] == rest;
      assert !StartsWith(s, AmpEntity) by { assert s[1] != AmpEntity[1]; }
    } else if b == Lt {
      assert s[..4] == LtEntity && s[4..] == rest;
      assert !StartsWith(s, AmpEntity) by { assert s[1] != AmpEntity[1]; }
      assert !StartsWith(s, AposEntity) by { assert s[1] != AposEntity[1]; }
    } else if b == Gt {
      assert s[..4] == GtEntity && s[4..] == rest;
      assert !StartsWith(s, AmpEntity) by { assert s[1] != AmpEntity[1]; }
      assert !StartsWith(s, AposEntity) by { assert s[1] != AposEntity[1]; }
      assert !StartsWith(s, LtEntity) by { assert s[1] != LtEntity[1]; }
    } else if b == Quot {
      assert s[..5] == QuotEntity && s[5..] == rest;
      assert !StartsWith(s, AmpEntity) by { assert s[1] != AmpEntity[1]; }
      assert !StartsWith(s, AposEntity) by { assert s[3] != AposEntity[3]; }
      assert !StartsWith(s, LtEntity) by { assert s[1] != LtEntity[1]; }
      assert !StartsWith(s, GtEntity) by { assert s[1] != GtEntity[1]; }
    } else {
      assert s[0] == b && s[1..] == rest;
      assert !StartsWith(s, AmpEntity) && !StartsWith(s, AposEntity) && !StartsWith(s, LtEntity)
          && !StartsWith(s, GtEntity) && !StartsWith(s, QuotEntity)
      by { assert s[0] != Amp; }
    }
  }

  /** Escaping loses nothing: the original text can always be recovered. */
  lemma {:induction false} UnescapeEscape(s: Bytes)
    ensures Unescape(Escape(s)) == s
    decreases |s|
  {
    if |s| > 0 {
      UnescapeEscapedByte(s[0], Escape(s[1..]));
      UnescapeEscape(s[1..]);
    }
  }

  /** Text without any of the five special bytes is left exactly as it is. */
  lemma {:induction false} EscapePlain(s: Bytes)
    requires forall i :: 0 <= i < |s| ==> !IsEscaped(s[i])
    ensures Escape(s) == s
    decreases |s|
  {
    if |s| > 0 {
      EscapePlain(s[1..]);
    }
  }

  /** Escaping distributes over concatenation. */
  lemma {:induction false} EscapeAppend(a: Bytes, b: Bytes)
    ensures Escape(a + b) == Escape(a) + Escape(b)
    decreases |a|
  {
    if |a| > 0 {
      assert (a + b)[1..] == a[1..] + b;
      EscapeAppend(a[1..], b);
    } else {
      assert a + b == b;
    }
  }
}

=== FILE: image_upload.dfy ===
/** The size bound on uploaded post images and the bytes saved for them.
    The upload is read through a reader limited to one byte more than the
    bound, so a longer upload shows up as a read of `MaxImageSize + 1`. */
module ImageUpload {
  import opened Ascii

  /** `20 << 20`: 20 MiB. */
  const MaxImageSize: int := 20 * 1024 * 1024

  /** `io.Copy(&buf, io.LimitReader(file, MaxImageSize + 1))`: the first bytes
      of the upload, at most one more than the bound. */
  function ReadLimited(data: Bytes): (buf: Bytes)
    ensures |buf| <= MaxImageSize + 1 && |buf| <= |data|
    ensures buf == data[..|buf|]
    ensures |data| <= MaxImageSize + 1 ==> buf == data
  {
    if |data| <= MaxImageSize + 1 then data else data[..MaxImageSize + 1]
  }

  /** The check `n > maxImageSize` on the number of bytes read. */
  predicate WithinLimit(data: Bytes) {
    |ReadLimited(data)| <= MaxImageSize
  }

  /** The limited read decides exactly by the true size: an image of exactly
      20 MiB is accepted and one byte more is refused. */
  lemma WithinLimitExactly(data: Bytes)
    ensures WithinLimit(data) <==> |data| <= MaxImageSize
  {
  }

  /** The bytes written to the image file as the handler is written: the
      second `io.Copy` reads from the upload again, after the limited read
      has already consumed it, so only what that read left behind is saved. */
  function SavedBytesAsWritten(data: Bytes): (saved: Bytes)
    ensures ReadLimited(data) + saved == data
    ensures WithinLimit(data) ==> saved == []
  {
    data[|ReadLimited(data)|..]
  }

  /** For every accepted upload nothing is left to copy: the saved file is
      empty, whatever the picture was. */
  lemma AsWrittenSavesEmptyFile(data: Bytes)
    requires WithinLimit(data)
    ensures SavedBytesAsWritten(data) == []
  {
  }

  /** A concrete one-byte picture that is accepted and then lost. */
  lemma AsWrittenLosesPicture()
    ensures WithinLimit([0x89]) && SavedBytesAsWritten([0x89]) != [0x89]
  {
    AsWrittenSavesEmptyFile([0x89]);
  }

  /** The bytes written to the image file when the buffer filled by the
      limited read is written out: an accepted upload is saved unchanged. */
  function SavedBytes(data: Bytes): (saved: Bytes)
    requires WithinLimit(data)
    ensures saved == data
  {
    ReadLimited(data)
  }
}

=== FILE: pagination.dfy ===
/** `GetPaginationParams`: the `page` and `limit` query parameters, each
    parsed with `strconv.Atoi` independently of the other. An absent
    parameter reads as the empty string. */
module Pagination {
  import opened Ascii
  import opened Wrappers
  import opened Decimal

  const DefaultPage: int := 1
  const DefaultLimit: int := 10

  /** The given value is a usable page number or page size. */
  predicate IsPositive(q: Bytes) {
    Atoi(q).Some? && Atoi(q).value >= 1
  }

  function ParamOrDefault(q: Bytes, default: int): int {
    match Atoi(q)
    case Some(v) => if v < 1 then default else v
    case None => default
  }

  /** Both results are at least 1; a positive value passes through unchanged
      with no upper clamp; anything else takes the default (1 and 10). */
  function GetPaginationParams(pageQuery: Bytes, limitQuery: Bytes): (r: (int, int))
    ensures 1 <= r.0 <= MaxInt64 && 1 <= r.1 <= MaxInt64
    ensures IsPositive(pageQuery) ==> r.0 == Atoi(pageQuery).value
    ensures !IsPositive(pageQuery) ==> r.0 == DefaultPage
    ensures IsPositive(limitQuery) ==> r.1 == Atoi(limitQuery).value
    ensures !IsPositive(limitQuery) ==> r.1 == DefaultLimit
  {
    (ParamOrDefault(pageQuery, DefaultPage), ParamOrDefault(limitQuery, DefaultLimit))
  }

  /** Any positive page and size, written in decimal, come back as given. */
  lemma PaginationRoundTrip(page: int, limit: int)
    requires 1 <= page <= MaxInt64 && 1 <= limit <= MaxInt64
    ensures GetPaginationParams(Format(page), Format(limit)) == (page, limit)
  {
    AtoiFormat(page);
    AtoiFormat(limit);
  }

  /** Absent, zero and negative parameters all give the defaults. */
  lemma PaginationDefaults(page: int, limit: int)
    requires MinInt64 <= page <= 0 && MinInt64 <= limit <= 0
    ensures GetPaginationParams([], []) == (DefaultPage, DefaultLimit)
    ensures GetPaginationParams(Format(page), Format(limit)) == (DefaultPage, DefaultLimit)
  {
    AtoiFormat(page);
    AtoiFormat(limit);
  }
}

=== FILE: post_handlers.dfy ===
/** The decision logic of the post handlers: each handler is a function from
    the request (method, decoded body, resolved session user) and the state
    of the posts table to the status code, the response body and the effect
    on the table. Checks run in the handlers' order: method, then decoding,
    then authentication, then the fetch of the post, then ownership. */
module PostHandlers {
  import opened Ascii
  import opened Wrappers
  import opened PostStore
  import Auth
  import Sanitize
  import Decimal
  import Pagination
  import ImageUpload

  const MethodGet: string := "GET"
  const MethodPost: string := "POST"
  const MethodPut: string := "PUT"
  const MethodDelete: string := "DELETE"

  const StatusOK: int := 200
  const StatusCreated: int := 201
  const StatusBadRequest: int := 400
  const StatusUnauthorized: int := 401
  const StatusForbidden: int := 403
  const StatusMethodNotAllowed: int := 405
  const StatusInternalServerError: int := 500

  /** A post as the list endpoints send it, with its author's avatar. */
  datatype PostView = PostView(id: PostId, owner: UserId, title: Bytes, content: Bytes, avatar: string)

  /** The fields `UpdatePost` decodes from its JSON body. */
  datatype PostPatch = PostPatch(id: PostId, title: Bytes, content: Bytes)

  datatype Body =
    | PlainError(message: string)
    | JsonError(message: string)
    | InvalidField(error: Sanitize.FieldError)
    | CreatedPost(id: PostId, post: Post)
    | UpdatedPost(patch: PostPatch)
    | Message(message: string)
    | PostList(posts: seq<PostView>)
    | StoredComments(postId: int)

  datatype Reply = Reply(status: int, body: Body, effect: Effect)

  const MethodNotAllowed: Reply := Reply(StatusMethodNotAllowed, PlainError("Method not allowed"), NoChange)
  const Unauthorized: Reply := Reply(StatusUnauthorized, PlainError("Unauthorized"), NoChange)
  const Forbidden: Reply := Reply(StatusForbidden, PlainError("Forbidden"), NoChange)

  /** Session resolution yields no user when the cookie is missing or the
      lookup fails, and the empty id for an unknown session; both are
      anonymous. */
  predicate SignedIn(session: Option<UserId>) {
    session.Some? && session.value != ""
  }

  /** The session user owns post `id`: the only case in which the table may
      change on that row. */
  predicate OwnedBySession(st: Store, id: PostId, session: Option<UserId>) {
    SignedIn(session) && id in st.posts && st.posts[id].owner == session.value
  }

  /** Storage failures this request meets, supplied from outside the model. */
  datatype Faults = Faults(readFails: bool, writeFails: bool)

  // ------------------------------------------------------------ CreatePost

  datatype CreateForm = CreateForm(title: Bytes, content: Bytes, image: Option<Bytes>)

  /** `form` is None when the multipart form cannot be parsed. */
  datatype CreateRequest = CreateRequest(httpMethod: string, form: Option<CreateForm>, session: Option<UserId>)

  /** What the file system and the database do with this request: whether
      each image step fails, the path chosen for the image, the category ids
      the category names resolve to (None on failure), and whether the insert
      fails. */
  datatype CreateEnv = CreateEnv(
    imageReadFails: bool, imageCreateFails: bool, imageWriteFails: bool, imagePath: string,
    categories: Option<seq<int>>, insertFails: bool)

  /** The optional image step: no image part means no image. */
  function StoreImage(image: Option<Bytes>, env: CreateEnv): (r: Result<Option<Image>, Reply>)
    ensures r.Err? ==> r.error.effect == NoChange && r.error.status in {StatusBadRequest, StatusInternalServerError}
    ensures image.None? ==> r == Ok(None)
    ensures image.Some? && env.imageReadFails ==>
              r == Err(Reply(StatusInternalServerError, PlainError("Failed to read image"), NoChange))
    ensures r.Ok? && r.value.Some? ==> image.Some? && r.value.value.data == image.value
    ensures image.Some? && !env.imageReadFails && |image.value| > ImageUpload.MaxImageSize ==>
              r == Err(Reply(StatusBadRequest, PlainError("Image exceeds 20MB limit"), NoChange))
  {
    match image
    case None => Ok(None)
    case Some(data) =>
      if env.imageReadFails then Err(Reply(StatusInternalServerError, PlainError("Failed to read image"), NoChange))
      else if !ImageUpload.WithinLimit(data) then
        Err(Reply(StatusBadRequest, PlainError("Image exceeds 20MB limit"), NoChange))
      else if env.imageCreateFails then
        Err(Reply(StatusInternalServerError, PlainError("Unable to save image"), NoChange))
      else if env.imageWriteFails then
        Err(Reply(StatusInternalServerError, PlainError("Failed to write image"), NoChange))
      else Ok(Some(Image(env.imagePath, ImageUpload.SavedBytes(data))))
  }

  /** The part of `CreatePost` after the text has been sanitised: the
      session check, the image, the categories and the insert. The stored
      post carries the text it is given and the uploaded image unchanged. */
  function InsertPost(session: Option<UserId>, title: Bytes, content: Bytes, image: Option<Bytes>,
                      env: CreateEnv, st: Store): (r: Reply)
    ensures r.status != StatusCreated ==> r.effect == NoChange
    ensures !SignedIn(session) ==> r == Unauthorized
    ensures SignedIn(session) && image.None? && env.categories.Some? && !env.insertFails ==>
              r.status == StatusCreated
    ensures SignedIn(session) && StoreImage(image, env).Err? ==> r == StoreImage(image, env).error
    ensures SignedIn(session) && StoreImage(image, env).Ok? && env.categories.None? ==>
              r == Reply(StatusInternalServerError, PlainError("Failed to resolve categories"), NoChange)
    ensures SignedIn(session) && StoreImage(image, env).Ok? && env.categories.Some? && env.insertFails ==>
              r == Reply(StatusInternalServerError, JsonError("Failed to create post"), NoChange)
    ensures r.status == StatusCreated ==>
              (SignedIn(session) && r.effect.Insert?
               && r.effect.post.owner == session.value
               && r.effect.post.title == title && r.effect.post.content == content
               && (image.Some? ==> r.effect.post.image == Some(Image(env.imagePath, image.value)))
               && (image.None? ==> r.effect.post.image.None?)
               && r.body == CreatedPost(st.nextId, r.effect.post))
  {
    if !SignedIn(session) then Unauthorized
    else match StoreImage(image, env)
      case Err(reply) => reply
      case Ok(stored) =>
        match env.categories
        case None => Reply(StatusInternalServerError, PlainError("Failed to resolve categories"), NoChange)
        case Some(categories) =>
          if env.insertFails then Reply(StatusInternalServerError, JsonError("Failed to create post"), NoChange)
          else
            var post := Post(session.value, title, content, stored, categories);
            Reply(StatusCreated, CreatedPost(st.nextId, post), Insert(post))
  }

  function CreatePost(req: CreateRequest, env: CreateEnv, st: Store): (r: Reply)
    ensures req.httpMethod != MethodPost ==> r == MethodNotAllowed
    ensures req.httpMethod == MethodPost && req.form.None? ==>
              r == Reply(StatusBadRequest, PlainError("Could not parse form data"), NoChange)
    ensures r.status != StatusCreated ==> r.effect == NoChange
    ensures r.status == StatusCreated ==>
              (SignedIn(req.session) && r.effect.Insert?
               && r.effect.post.owner == req.session.value
               && r.body == CreatedPost(st.nextId, r.effect.post))
  {
    if req.httpMethod != MethodPost then MethodNotAllowed
    else match req.form
    case None => Reply(StatusBadRequest, PlainError("Could not parse form data"), NoChange)
    case Some(form) =>
      match Sanitize.ValidatePostContent(form.title, form.content)
      case Fail(e) => Reply(StatusBadRequest, InvalidField(e), NoChange)
      case Pass =>
        match Sanitize.ValidateAndSanitizeString(form.title, Sanitize.MaxTitleLength, "title")
        case Err(e) => Reply(StatusBadRequest, InvalidField(e), NoChange)
        case Ok(title) =>
          match Sanitize.ValidateAndSanitizeString(form.content, Sanitize.MaxPostContentLength, "content")
          case Err(e) => Reply(StatusBadRequest, InvalidField(e), NoChange)
          case Ok(content) => InsertPost(req.session, title, content, form.image, env, st)
  }

  // ------------------------------------------------------------ UpdatePost

  /** `body` is None when the JSON body cannot be decoded. */
  datatype UpdateRequest = UpdateRequest(httpMethod: string, body: Option<PostPatch>, session: Option<UserId>)

  function UpdatePost(req: UpdateRequest, st: Store, faults: Faults): (r: Reply)
    ensures req.httpMethod != MethodPut ==> r == MethodNotAllowed
    ensures r.status != StatusOK ==> r.effect == NoChange
    ensures r.effect != NoChange ==>
              req.body.Some? && OwnedBySession(st, req.body.value.id, req.session)
              && r.effect == Update(req.body.value.id, req.body.value.title, req.body.value.content)
    ensures req.httpMethod == MethodPut && req.body.Some? && SignedIn(req.session)
            && (faults.readFails || req.body.value.id !in st.posts) ==>
              r == Reply(StatusInternalServerError, JsonError("Failed to read post data"), NoChange)
    ensures req.httpMethod == MethodPut && req.body.Some? && !faults.readFails
            && OwnedBySession(st, req.body.value.id, req.session) && faults.writeFails ==>
              r == Reply(StatusInternalServerError, JsonError("Failed to update post"), NoChange)
  {
    if req.httpMethod != MethodPut then MethodNotAllowed
    else match req.body
    case None => Reply(StatusBadRequest, PlainError("Invalid post data"), NoChange)
    case Some(patch) =>
      if !SignedIn(req.session) then Unauthorized
      else match GetPost(st, patch.id, faults.readFails)
        case Err(_) => Reply(StatusInternalServerError, JsonError("Failed to read post data"), NoChange)
        case Ok(existing) =>
          if existing.owner != req.session.value then Forbidden
          else if faults.writeFails then Reply(StatusInternalServerError, JsonError("Failed to update post"), NoChange)
          else Reply(StatusOK, UpdatedPost(patch), Update(patch.id, patch.title, patch.content))
  }

  // ------------------------------------------------------------ DeletePost

  /** `postId` is None when the JSON body cannot be decoded. */
  datatype DeleteRequest = DeleteRequest(httpMethod: string, postId: Option<PostId>, session: Option<UserId>)

  function DeletePost(req: DeleteRequest, st: Store, faults: Faults): (r: Reply)
    ensures req.httpMethod != MethodDelete ==> r == MethodNotAllowed
    ensures r.status != StatusOK ==> r.effect == NoChange
    ensures r.effect != NoChange ==>
              req.postId.Some? && OwnedBySession(st, req.postId.value, req.session)
              && r.effect == Delete(req.postId.value)
    ensures r.status == StatusOK ==> r.body == Message("Post deleted")
    ensures req.httpMethod == MethodDelete && req.postId.Some? && SignedIn(req.session)
            && (faults.readFails || req.postId.value !in st.posts) ==>
              r == Reply(StatusInternalServerError, JsonError("Failed to read post data"), NoChange)
    ensures req.httpMethod == MethodDelete && req.postId.Some? && !faults.readFails
            && OwnedBySession(st, req.postId.value, req.session) && faults.writeFails ==>
              r == Reply(StatusInternalServerError, JsonError("Failed to delete post"), NoChange)
  {
    if req.httpMethod != MethodDelete then MethodNotAllowed
    else match req.postId
    case None => Reply(StatusBadRequest, PlainError("Invalid request data"), NoChange)
    case Some(id) =>
      if !SignedIn(req.session) then Unauthorized
      else match GetPost(st, id, faults.readFails)
        case Err(_) => Reply(StatusInternalServerError, JsonError("Failed to read post data"), NoChange)
        case Ok(existing) =>
          if existing.owner != req.session.value then Forbidden
          else if faults.writeFails then Reply(StatusInternalServerError, JsonError("Failed to delete post"), NoChange)
          else Reply(StatusOK, Message("Post deleted"), Delete(id))
  }

  // ------------------------------------------------------- list endpoints

  /** A list request: method, resolved session user and the raw `page` and
      `limit` query values (empty when absent). */
  datatype ListRequest = ListRequest(httpMethod: string, session: Option<UserId>, pageQuery: Bytes, limitQuery: Bytes)

  /** The per-post author lookup of the list handlers: the first failing
      lookup fails the whole list; otherwise every post gets its author's
      avatar and nothing else changes. */
  function WithAvatars(posts: seq<PostView>, avatarOf: UserId -> Option<string>): (r: Option<seq<PostView>>)
    ensures r.None? <==> exists i :: 0 <= i < |posts| && avatarOf(posts[i].owner).None?
    ensures r.Some? ==> |r.value| == |posts|
    ensures r.Some? ==> forall i :: 0 <= i < |posts| ==>
              r.value[i] == posts[i].(avatar := avatarOf(posts[i].owner).value)
    decreases |posts|
  {
    if |posts| == 0 then Some([])
    else match avatarOf(posts[0].owner)
      case None => None
      case Some(avatar) =>
        match WithAvatars(posts[1..], avatarOf)
        case None => None
        case Some(rest) => Some([posts[0].(avatar := avatar)] + rest)
  }

  /** The reply when looking up the author of a listed post fails. */
  const AuthorLookupFailed := Reply(StatusInternalServerError, JsonError("Failed to fetch post user information"), NoChange)

  /** `GetLikedPosts`: the store's liked-posts query is `likedBy(user, page,
      limit)`; None stands for a failed query. */
  function GetLikedPosts(req: ListRequest, likedBy: (UserId, int, int) -> Option<seq<PostView>>,
                         avatarOf: UserId -> Option<string>): (r: Reply)
    ensures r.effect == NoChange
    ensures req.httpMethod != MethodGet ==> r == MethodNotAllowed
    ensures req.httpMethod == MethodGet && !SignedIn(req.session) ==>
              r == Reply(StatusUnauthorized, JsonError("Unauthorized"), NoChange)
    ensures req.httpMethod == MethodGet && SignedIn(req.session) ==>
              (var (page, limit) := Pagination.GetPaginationParams(req.pageQuery, req.limitQuery);
               var q := likedBy(req.session.value, page, limit);
               && (q.None? ==> r == Reply(StatusInternalServerError, JsonError("Failed to fetch liked posts"), NoChange))
               && (q.Some? && WithAvatars(q.value, avatarOf).None? ==> r == AuthorLookupFailed)
               && (r.status == StatusOK <==> q.Some? && WithAvatars(q.value, avatarOf).Some?)
               && (r.status == StatusOK ==> r.body == PostList(WithAvatars(q.value, avatarOf).value)))
    ensures r.status == StatusOK ==> req.httpMethod == MethodGet && SignedIn(req.session)
  {
    if req.httpMethod != MethodGet then MethodNotAllowed
    else if !SignedIn(req.session) then Reply(StatusUnauthorized, JsonError("Unauthorized"), NoChange)
    else
      var (page, limit) := Pagination.GetPaginationParams(req.pageQuery, req.limitQuery);
      match likedBy(req.session.value, page, limit)
      case None => Reply(StatusInternalServerError, JsonError("Failed to fetch liked posts"), NoChange)
      case Some(posts) =>
        match WithAvatars(posts, avatarOf)
        case None => AuthorLookupFailed
        case Some(full) => Reply(StatusOK, PostList(full), NoChange)
  }

  /** `GetPosts`: the public feed, `feed(page, limit)` being the store's query. */
  function GetPosts(req: ListRequest, feed: (int, int) -> Option<seq<PostView>>,
                    avatarOf: UserId -> Option<string>): (r: Reply)
    ensures r.effect == NoChange
    ensures req.httpMethod != MethodGet ==> r == MethodNotAllowed
    ensures req.httpMethod == MethodGet ==>
              (var (page, limit) := Pagination.GetPaginationParams(req.pageQuery, req.limitQuery);
               var q := feed(page, limit);
               && (q.None? ==> r == Reply(StatusInternalServerError, JsonError("Failed to fetch posts"), NoChange))
               && (q.Some? && WithAvatars(q.value, avatarOf).None? ==> r == AuthorLookupFailed)
               && (r.status == StatusOK <==> q.Some? && WithAvatars(q.value, avatarOf).Some?)
               && (r.status == StatusOK ==> r.body == PostList(WithAvatars(q.value, avatarOf).value)))
  {
    if req.httpMethod != MethodGet then MethodNotAllowed
    else
      var (page, limit) := Pagination.GetPaginationParams(req.pageQuery, req.limitQuery);
      match feed(page, limit)
      case None => Reply(StatusInternalServerError, JsonError("Failed to fetch posts"), NoChange)
      case Some(posts) =>
        match WithAvatars(posts, avatarOf)
        case None => AuthorLookupFailed
        case Some(full) => Reply(StatusOK, PostList(full), NoChange)
  }

  /** `GetPostComments`: `post_id` must be present and an integer (zero and
      negative ids are passed on); `commentsFail(id)` says whether the
      store's comment query for `id` fails. */
  function GetPostComments(httpMethod: string, postIdQuery: Bytes, commentsFail: int -> bool): (r: Reply)
    ensures r.effect == NoChange
    ensures httpMethod != MethodGet ==> r == MethodNotAllowed
    ensures httpMethod == MethodGet && |postIdQuery| == 0 ==>
              r == Reply(StatusBadRequest, PlainError("Missing post_id parameter"), NoChange)
    ensures httpMethod == MethodGet && |postIdQuery| > 0 && Decimal.Atoi(postIdQuery).None? ==>
              r == Reply(StatusBadRequest, PlainError("Invalid post_id parameter"), NoChange)
    ensures r.status == StatusOK <==>
              httpMethod == MethodGet && Decimal.Atoi(postIdQuery).Some? && !commentsFail(Decimal.Atoi(postIdQuery).value)
    ensures r.status == StatusOK ==> r.body == StoredComments(Decimal.Atoi(postIdQuery).value)
    ensures httpMethod == MethodGet && Decimal.Atoi(postIdQuery).Some? && commentsFail(Decimal.Atoi(postIdQuery).value) ==>
              r == Reply(StatusInternalServerError, JsonError("Failed to fetch comments"), NoChange)
  {
    if httpMethod != MethodGet then MethodNotAllowed
    else if |postIdQuery| == 0 then Reply(StatusBadRequest, PlainError("Missing post_id parameter"), NoChange)
    else match Decimal.Atoi(postIdQuery)
      case None => Reply(StatusBadRequest, PlainError("Invalid post_id parameter"), NoChange)
      case Some(postId) =>
        if commentsFail(postId) then Reply(StatusInternalServerError, JsonError("Failed to fetch comments"), NoChange)
        else Reply(StatusOK, StoredComments(postId), NoChange)
  }
}

=== FILE: post_rules.dfy ===
/** Properties that relate the post handlers to the table they guard: who
    may change which row, in which order the checks run, and what a
    successful request leaves behind. */
module PostRules {
  import opened Ascii
  import opened Wrappers
  import opened PostStore
  import opened PostHandlers
  import Auth
  import Sanitize
  import Html
  import Decimal
  import ImageUpload

  /** A row that exists before the request is changed or removed by it. */
  predicate RowChanged(st: Store, st': Store, id: PostId)
    requires id in st.posts
  {
    id !in st'.posts || st'.posts[id] != st.posts[id]
  }

  /** Only the owner of a post, signed in, can change or delete it, whatever
      the request, the table and the storage failures. */
  lemma OnlyOwnerChangesPost(ureq: UpdateRequest, dreq: DeleteRequest, st: Store, faults: Faults, id: PostId)
    requires id in st.posts
    ensures RowChanged(st, Apply(st, UpdatePost(ureq, st, faults).effect), id) ==> OwnedBySession(st, id, ureq.session)
    ensures RowChanged(st, Apply(st, DeletePost(dreq, st, faults).effect), id) ==> OwnedBySession(st, id, dreq.session)
  {
  }

  /** Creating a post never touches an existing row and keeps the table's
      id invariant. */
  lemma CreateKeepsExistingPosts(req: CreateRequest, env: CreateEnv, st: Store)
    requires Valid(st)
    ensures var st' := Apply(st, CreatePost(req, env, st).effect);
            Valid(st') && forall id :: id in st.posts ==> !RowChanged(st, st', id)
  {
  }

  /** The ownership guard of `UpdatePost`: once the request is a decoded PUT
      from a signed-in user and the post can be read, the answer is 403 and
      nothing changes exactly when the stored owner is someone else. */
  lemma UpdateOwnershipGuard(req: UpdateRequest, st: Store, faults: Faults)
    requires req.httpMethod == MethodPut && req.body.Some? && SignedIn(req.session)
    requires !faults.readFails && req.body.value.id in st.posts
    ensures var r := UpdatePost(req, st, faults);
            (r.status == StatusForbidden <==> st.posts[req.body.value.id].owner != req.session.value)
            && (r.status == StatusForbidden ==> r == Forbidden && Apply(st, r.effect) == st)
            && (OwnedBySession(st, req.body.value.id, req.session) && !faults.writeFails ==>
                  r == Reply(StatusOK, UpdatedPost(req.body.value),
                             Update(req.body.value.id, req.body.value.title, req.body.value.content)))
  {
  }

  /** The ownership guard of `DeletePost`; and when the owner asks, the post
      is gone, every other post is kept, and the reply is "Post deleted". */
  lemma DeleteOwnershipGuard(req: DeleteRequest, st: Store, faults: Faults)
    requires req.httpMethod == MethodDelete && req.postId.Some? && SignedIn(req.session)
    requires !faults.readFails && req.postId.value in st.posts
    ensures var r := DeletePost(req, st, faults);
            (r.status == StatusForbidden <==> st.posts[req.postId.value].owner != req.session.value)
            && (r.status == StatusForbidden ==> r == Forbidden && Apply(st, r.effect) == st)
    ensures var r := DeletePost(req, st, faults);
            OwnedBySession(st, req.postId.value, req.session) && !faults.writeFails ==>
              r == Reply(StatusOK, Message("Post deleted"), Delete(req.postId.value))
              && Apply(st, r.effect).posts == st.posts - {req.postId.value}
  {
  }

  /** Without a signed-in user, update and delete answer 401 before any
      lookup: the reply is the same whatever the table holds and whatever
      the storage would do. */
  lemma AnonymousRequestsNeverReachTheTable(ureq: UpdateRequest, dreq: DeleteRequest,
                                            st1: Store, st2: Store, f1: Faults, f2: Faults)
    requires !SignedIn(ureq.session) && ureq.httpMethod == MethodPut && ureq.body.Some?
    requires !SignedIn(dreq.session) && dreq.httpMethod == MethodDelete && dreq.postId.Some?
    ensures UpdatePost(ureq, st1, f1) == UpdatePost(ureq, st2, f2) == Unauthorized
    ensures DeletePost(dreq, st1, f1) == DeletePost(dreq, st2, f2) == Unauthorized
  {
  }

  /** A body that does not decode is refused with 400 before the session is
      looked at. */
  lemma DecodingPrecedesAuthentication(ureq: UpdateRequest, dreq: DeleteRequest, st: Store, faults: Faults)
    requires ureq.httpMethod == MethodPut && ureq.body.None?
    requires dreq.httpMethod == MethodDelete && dreq.postId.None?
    ensures UpdatePost(ureq, st, faults) == Reply(StatusBadRequest, PlainError("Invalid post data"), NoChange)
    ensures DeletePost(dreq, st, faults) == Reply(StatusBadRequest, PlainError("Invalid request data"), NoChange)
  {
  }

  /** The guard of the handlers agrees with `IsAuthor` on the posts table. */
  lemma GuardAgreesWithIsAuthor(req: UpdateRequest, st: Store, faults: Faults)
    requires req.httpMethod == MethodPut && req.body.Some? && SignedIn(req.session)
    requires !faults.readFails && req.body.value.id in st.posts
    ensures UpdatePost(req, st, faults).status == StatusForbidden <==>
            Auth.IsAuthor(Auth.Authors(Owners(st), map[]), false, req.session.value, req.body.value.id, true) == Ok(false)
  {
  }

  /** Title and content are validated before the session is consulted:
      invalid text is a 400 even for an anonymous caller. */
  lemma CreateValidatesBeforeAuthentication(req: CreateRequest, env: CreateEnv, st: Store)
    requires req.httpMethod == MethodPost && req.form.Some?
    requires Sanitize.ValidatePostContent(req.form.value.title, req.form.value.content).Fail?
    ensures CreatePost(req, env, st).status == StatusBadRequest
    ensures CreatePost(req, env, st).body
            == InvalidField(Sanitize.ValidatePostContent(req.form.value.title, req.form.value.content).error)
  {
  }

  /** Once a POST is parsed and its text passes validation, `CreatePost`
      answers exactly what the insertion step answers for the escaped,
      trimmed title and content; in particular a signed-in post without an
      image is created when the category and insert steps succeed. */
  lemma CreatePostAfterValidation(req: CreateRequest, env: CreateEnv, st: Store)
    ensures req.httpMethod == MethodPost && req.form.Some?
            && Sanitize.ValidatePostContent(req.form.value.title, req.form.value.content).Pass? ==>
              CreatePost(req, env, st)
              == InsertPost(req.session, Html.Escape(Sanitize.TrimSpace(req.form.value.title)),
                            Html.Escape(Sanitize.TrimSpace(req.form.value.content)), req.form.value.image, env, st)
    ensures req.httpMethod == MethodPost && req.form.Some? && SignedIn(req.session)
            && Sanitize.ValidatePostContent(req.form.value.title, req.form.value.content).Pass?
            && req.form.value.image.None? && env.categories.Some? && !env.insertFails ==>
              CreatePost(req, env, st).status == StatusCreated
  {
  }

  /** The image bound: once the text is sanitised and the caller signed in,
      an image of at most 20 MiB (exactly 20 MiB included) is accepted and
      one strictly larger is refused with 400. */
  lemma CreateImageBound(session: Option<UserId>, title: Bytes, content: Bytes, data: Bytes,
                         env: CreateEnv, st: Store)
    requires SignedIn(session)
    requires !env.imageReadFails && !env.imageCreateFails && !env.imageWriteFails
    requires env.categories.Some? && !env.insertFails
    ensures |data| <= ImageUpload.MaxImageSize ==>
              InsertPost(session, title, content, Some(data), env, st).status == StatusCreated
    ensures |data| > ImageUpload.MaxImageSize ==>
              InsertPost(session, title, content, Some(data), env, st)
              == Reply(StatusBadRequest, PlainError("Image exceeds 20MB limit"), NoChange)
  {
    ImageUpload.WithinLimitExactly(data);
  }

  /** A created post stores the trimmed, escaped title and content (no raw
      markup byte, and unescaping gives back the trimmed input) and the
      uploaded image unchanged. */
  lemma CreateStoresSanitisedPost(req: CreateRequest, env: CreateEnv, st: Store)
    ensures var r := CreatePost(req, env, st);
            r.status == StatusCreated ==>
              && req.form.Some?
              && Html.Unescape(r.effect.post.title) == Sanitize.TrimSpace(req.form.value.title)
              && Html.Unescape(r.effect.post.content) == Sanitize.TrimSpace(req.form.value.content)
              && (forall i :: 0 <= i < |r.effect.post.title| ==> !Html.IsMarkup(r.effect.post.title[i]))
              && (forall i :: 0 <= i < |r.effect.post.content| ==> !Html.IsMarkup(r.effect.post.content[i]))
              && (req.form.value.image.Some? ==>
                    r.effect.post.image == Some(Image(env.imagePath, req.form.value.image.value)))
              && (req.form.value.image.None? ==> r.effect.post.image.None?)
  {
  }

  /** Unlike creation, an update stores the title and content exactly as
      sent, without trimming or escaping. */
  lemma UpdateStoresTextAsSent(req: UpdateRequest, st: Store, faults: Faults)
    requires UpdatePost(req, st, faults).status == StatusOK
    ensures var id := req.body.value.id;
            var st' := Apply(st, UpdatePost(req, st, faults).effect);
            id in st'.posts && st'.posts[id].title == req.body.value.title
            && st'.posts[id].content == req.body.value.content
            && st'.posts[id].owner == st.posts[id].owner
  {
  }

  /** `GetPostComments` hands zero and negative ids to the store, where
      `ValidateID` would refuse them, and refuses a non-numeric id. */
  lemma CommentsAcceptAnyInteger(n: int, commentsFail: int -> bool)
    requires Decimal.InInt64(n) && !commentsFail(n)
    ensures GetPostComments(MethodGet, Decimal.Format(n), commentsFail) == Reply(StatusOK, StoredComments(n), NoChange)
    ensures GetPostComments(MethodGet, FromString("abc"), commentsFail).status == StatusBadRequest
  {
    Decimal.AtoiFormat(n);
  }

  /** A user who does not own a post cannot delete it and the table is left
      as it was; its owner can, and the post is gone afterwards. */
  lemma DeleteScenario(owner: UserId, other: UserId, id: PostId, p: Post, faults: Faults)
    requires owner != "" && other != "" && owner != other && p.owner == owner
    requires !faults.readFails && !faults.writeFails
    ensures var st := Store(map[id := p], id + 1);
            var r := DeletePost(DeleteRequest(MethodDelete, Some(id), Some(other)), st, faults);
            r.status == StatusForbidden && Apply(st, r.effect) == st
    ensures var st := Store(map[id := p], id + 1);
            var r := DeletePost(DeleteRequest(MethodDelete, Some(id), Some(owner)), st, faults);
            r.status == StatusOK && id !in Apply(st, r.effect).posts
  {
  }
}

=== FILE: post_store.dfy ===
/** The posts table as the handlers see it: rows keyed by post id, each with
    its owner, and the effects a handler may have on it. Ids are handed out
    by the table (AUTOINCREMENT), so a new post never reuses an id. */
module PostStore {
  import opened Ascii
  import opened Wrappers
  import Auth

  type PostId = int

  type UserId = Auth.UserId

  /** An uploaded picture: the path the post refers to and the bytes saved there. */
  datatype Image = Image(path: string, data: Bytes)

  datatype Post = Post(owner: UserId, title: Bytes, content: Bytes, image: Option<Image>, categories: seq<int>)

  datatype Store = Store(posts: map<PostId, Post>, nextId: PostId)

  /** Every stored id is positive and below the next id to be handed out. */
  predicate Valid(st: Store) {
    st.nextId >= 1 && forall id :: id in st.posts ==> 1 <= id < st.nextId
  }

  /** What one request does to the table; a rejected request does nothing. */
  datatype Effect =
    | NoChange
    | Insert(post: Post)
    | Update(id: PostId, title: Bytes, content: Bytes)
    | Delete(id: PostId)

  /** The single row an effect may touch, if any. */
  function Target(st: Store, e: Effect): Option<PostId> {
    match e
    case NoChange => None
    case Insert(_) => Some(st.nextId)
    case Update(id, _, _) => Some(id)
    case Delete(id) => Some(id)
  }

  function Apply(st: Store, e: Effect): (st': Store)
    ensures Valid(st) ==> Valid(st')
    ensures forall id :: id in st.posts && Target(st, e) != Some(id) ==>
              id in st'.posts && st'.posts[id] == st.posts[id]
    ensures forall id :: id in st'.posts && Target(st, e) != Some(id) ==> id in st.posts
    ensures e.Insert? && Valid(st) ==> st.nextId !in st.posts && st.nextId in st'.posts
    ensures e.Insert? ==> st.nextId in st'.posts && st'.posts[st.nextId] == e.post
    ensures e.Update? && e.id in st.posts ==>
              e.id in st'.posts && st'.posts[e.id] == st.posts[e.id].(title := e.title, content := e.content)
    ensures e.Update? && e.id !in st.posts ==> st' == st
    ensures e.Delete? ==> e.id !in st'.posts
  {
    match e
    case NoChange => st
    case Insert(p) => Store(st.posts[st.nextId := p], st.nextId + 1)
    case Update(id, title, content) =>
      if id in st.posts then Store(st.posts[id := st.posts[id].(title := title, content := content)], st.nextId)
      else st
    case Delete(id) => Store(st.posts - {id}, st.nextId)
  }

  /** `sqlite.GetPost`: a missing row is an error just like a storage failure. */
  function GetPost(st: Store, id: PostId, readFails: bool): (r: Result<Post, Auth.LookupError>)
    ensures r.Ok? <==> !readFails && id in st.posts
    ensures r.Ok? ==> r.value == st.posts[id]
  {
    if readFails || id !in st.posts then Err(Auth.LookupFailed) else Ok(st.posts[id])
  }

  /** The owner column of the table, as `IsAuthor` reads it. */
  function Owners(st: Store): (m: map<PostId, UserId>)
    ensures m.Keys == st.posts.Keys
    ensures forall id :: id in m ==> m[id] == st.posts[id].owner
  {
    map id | id in st.posts :: st.posts[id].owner
  }
}

=== FILE: sanitize.dfy ===
/** Free-text validation and sanitisation (`ValidateAndSanitizeString`) and
    the two wrappers that apply it with fixed limits to posts and comments. */
module Sanitize {
  import opened Ascii
  import opened Wrappers
  import Utf8
  import Html

  const Nul: Byte := 0

  const MaxTitleLength: int := 200
  const MaxPostContentLength: int := 10000
  const MaxCommentLength: int := 2000

  /** Why a field was refused, in the order the checks run. */
  datatype Reason = ContainsNul | Empty | TooLong(maxLength: int) | InvalidUtf8

  /** The refusal together with the field name the message carries. */
  datatype FieldError = FieldError(field: string, reason: Reason)

  /** The number of white-space bytes at the start of `s`. */
  function LeadingSpaces(s: Bytes): (n: nat)
    ensures n <= |s|
    ensures AllIn(s[..n], IsSpace)
    ensures n == |s| || !IsSpace(s[n])
    decreases |s|
  {
    if |s| > 0 && IsSpace(s[0]) then 1 + LeadingSpaces(s[1..]) else 0
  }

  /** The number of white-space bytes at the end of `s`. */
  function TrailingSpaces(s: Bytes): (n: nat)
    ensures n <= |s|
    ensures AllIn(s[|s| - n..], IsSpace)
    ensures n == |s| || !IsSpace(s[|s| - n - 1])
    decreases |s|
  {
    if |s| > 0 && IsSpace(s[|s| - 1]) then 1 + TrailingSpaces(s[..|s| - 1]) else 0
  }

  /** A non-blank byte at the end of the leading run stops the trailing run
      short of it. */
  lemma TrailingStopsAtText(s: Bytes)
    requires LeadingSpaces(s) < |s|
    ensures LeadingSpaces(s) < |s| - TrailingSpaces(s)
  {
    var t := TrailingSpaces(s);
    forall i | |s| - t <= i < |s| ensures IsSpace(s[i]) {
      assert s[|s| - t..][i - (|s| - t)] == s[i];
    }
  }

  /** `strings.TrimSpace` restricted to ASCII white space: the result is a
      slice of `s` from which only white space was dropped on either side,
      and it neither starts nor ends with white space. */
  function TrimSpace(s: Bytes): (r: Bytes)
    ensures var lo := LeadingSpaces(s);
            lo + |r| <= |s| && r == s[lo..lo + |r|]
            && AllIn(s[..lo], IsSpace) && AllIn(s[lo + |r|..], IsSpace)
    ensures |r| == 0 || (!IsSpace(r[0]) && !IsSpace(r[|r| - 1]))
    ensures |r| == 0 <==> AllIn(s, IsSpace)
  {
    var lo := LeadingSpaces(s);
    if lo == |s| then
      assert s[..lo] == s;
      assert s[lo..] == [];
      []
    else
      TrailingStopsAtText(s);
      var hi := |s| - TrailingSpaces(s);
      var r := s[lo..hi];
      assert r[0] == s[lo] && r[|r| - 1] == s[hi - 1];
      assert !AllIn(s, IsSpace) by { assert !IsSpace(s[lo]); }
      assert s[lo + |r|..] == s[|s| - TrailingSpaces(s)..];
      r
  }

  /** `ValidateAndSanitizeString`: refuse a NUL byte anywhere in the raw
      input, then trim, then bound the trimmed length, then require valid
      UTF-8, then HTML-escape. */
  function ValidateAndSanitizeString(input: Bytes, maxLength: int, field: string): (r: Result<Bytes, FieldError>)
    ensures r.Err? ==> r.error.field == field
    ensures Contains(input, Nul) ==> r == Err(FieldError(field, ContainsNul))
    ensures r.Ok? <==> !Contains(input, Nul) && 1 <= |TrimSpace(input)| <= maxLength
                         && Utf8.Valid(TrimSpace(input))
    ensures r == Err(FieldError(field, Empty)) <==> !Contains(input, Nul) && AllIn(input, IsSpace)
    ensures r == Err(FieldError(field, TooLong(maxLength))) <==>
              !Contains(input, Nul) && 0 < |TrimSpace(input)| && |TrimSpace(input)| > maxLength
    ensures r == Err(FieldError(field, InvalidUtf8)) <==>
              !Contains(input, Nul) && 1 <= |TrimSpace(input)| <= maxLength && !Utf8.Valid(TrimSpace(input))
    ensures r.Ok? ==> r.value == Html.Escape(TrimSpace(input))
    ensures r.Ok? ==> Html.Unescape(r.value) == TrimSpace(input)
    ensures r.Ok? ==> forall i :: 0 <= i < |r.value| ==> !Html.IsMarkup(r.value[i])
    ensures r.Ok? ==> |r.value| <= 5 * maxLength
  {
    if Contains(input, Nul) then Err(FieldError(field, ContainsNul))
    else
      var trimmed := TrimSpace(input);
      if |trimmed| == 0 then Err(FieldError(field, Empty))
      else if |trimmed| > maxLength then Err(FieldError(field, TooLong(maxLength)))
      else if !Utf8.Valid(trimmed) then Err(FieldError(field, InvalidUtf8))
      else
        Html.UnescapeEscape(trimmed);
        Ok(Html.Escape(trimmed))
  }

  /** `ValidatePostContent`: the title (at most 200 bytes) is checked before
      the content (at most 10000 bytes); the first failure is reported. */
  function ValidatePostContent(title: Bytes, content: Bytes): (r: Outcome<FieldError>)
    ensures r.Pass? <==> ValidateAndSanitizeString(title, MaxTitleLength, "title").Ok?
                         && ValidateAndSanitizeString(content, MaxPostContentLength, "content").Ok?
    ensures r.Fail? && r.error.field == "title" <==> ValidateAndSanitizeString(title, MaxTitleLength, "title").Err?
    ensures r.Fail? ==>
              r.error == (if ValidateAndSanitizeString(title, MaxTitleLength, "title").Err?
                          then ValidateAndSanitizeString(title, MaxTitleLength, "title").error
                          else ValidateAndSanitizeString(content, MaxPostContentLength, "content").error)
  {
    match ValidateAndSanitizeString(title, MaxTitleLength, "title")
    case Err(e) => Fail(e)
    case Ok(_) =>
      match ValidateAndSanitizeString(content, MaxPostContentLength, "content")
      case Err(e) => Fail(e)
      case Ok(_) => Pass
  }

  /** `ValidateCommentContent`: a comment of at most 2000 bytes. */
  function ValidateCommentContent(content: Bytes): (r: Outcome<FieldError>)
    ensures r.Pass? <==> !Contains(content, Nul) && 1 <= |TrimSpace(content)| <= MaxCommentLength
                         && Utf8.Valid(TrimSpace(content))
    ensures r.Fail? ==> r.error.field == "comment"
    ensures r.Fail? ==> r.error == ValidateAndSanitizeString(content, MaxCommentLength, "comment").error
  {
    match ValidateAndSanitizeString(content, MaxCommentLength, "comment")
    case Err(e) => Fail(e)
    case Ok(_) => Pass
  }

  /** Trimming is idempotent. */
  lemma TrimSpaceIdempotent(s: Bytes)
    ensures TrimSpace(TrimSpace(s)) == TrimSpace(s)
  {
    var t := TrimSpace(s);
    if |t| > 0 {
      TrimSpaceUnpads([], t, []);
      assert [] + t + [] == t;
    }
  }

  /** Trimming removes exactly the padding: white space added on both sides of
      a text that neither starts nor ends with white space is stripped again. */
  lemma TrimSpaceUnpads(pre: Bytes, t: Bytes, post: Bytes)
    requires AllIn(pre, IsSpace) && AllIn(post, IsSpace)
    requires |t| == 0 || (!IsSpace(t[0]) && !IsSpace(t[|t| - 1]))
    ensures TrimSpace(pre + t + post) == t
  {
    var s := pre + t + post;
    var r := TrimSpace(s);
    var lo := LeadingSpaces(s);
    if |t| == 0 {
      assert AllIn(s, IsSpace);
    } else {
      assert s[|pre|] == t[0];
      assert lo == |pre|;
      assert s[|pre| + |t| - 1] == t[|t| - 1];
      assert lo + |r| == |pre| + |t|;
      assert r == s[|pre|..|pre| + |t|];
    }
  }

  /** The order of the checks: a NUL byte is reported even when the rest of
      the input is white space only or far too long. */
  lemma NulCheckedFirst(input: Bytes, maxLength: int, field: string)
    requires AllIn(input, (b: Byte) => IsSpace(b) || b == Nul) && Contains(input, Nul)
    ensures ValidateAndSanitizeString(input, maxLength, field) == Err(FieldError(field, ContainsNul))
  {
  }

}

=== FILE: utf8.dfy ===
/** Well-formed UTF-8 as Go's `utf8.ValidString` decides it: the byte
    sequences of Table 3-7 of the Unicode Standard, which exclude overlong
    forms, surrogates and code points above U+10FFFF. */
module Utf8 {
  import opened Ascii

  predicate IsCont(b: Byte) { 0x80 <= b <= 0xBF }

  /** The length of the well-formed sequence at the head of `s`, or 0 when
      the head is not the start of one. */
  function HeadLength(s: Bytes): (n: nat)
    requires |s| > 0
    ensures n <= |s| && n <= 4
    ensures s[0] < 0x80 <==> n == 1
  {
    var b := s[0];
    if b < 0x80 then 1
    else if 0xC2 <= b <= 0xDF then
      if |s| >= 2 && IsCont(s[1]) then 2 else 0
    else if 0xE0 <= b <= 0xEF then
      var lo := if b == 0xE0 then 0xA0 else 0x80;
      var hi := if b == 0xED then 0x9F else 0xBF;
      if |s| >= 3 && lo <= s[1] <= hi && IsCont(s[2]) then 3 else 0
    else if 0xF0 <= b <= 0xF4 then
      var lo := if b == 0xF0 then 0x90 else 0x80;
      var hi := if b == 0xF4 then 0x8F else 0xBF;
      if |s| >= 4 && lo <= s[1] <= hi && IsCont(s[2]) && IsCont(s[3]) then 4 else 0
    else 0
  }

  /** `utf8.ValidString`: `s` splits into well-formed sequences. */
  predicate Valid(s: Bytes): (ok: bool)
    ensures |s| == 0 ==> ok
    ensures ok && |s| > 0 ==> !IsCont(s[0]) && s[0] != 0xC0 && s[0] != 0xC1 && s[0] < 0xF5
    ensures AllIn(s, IsAsciiByte) ==> ok
    decreases |s|
  {
    |s| == 0 || (HeadLength(s) > 0 && Valid(s[HeadLength(s)..]))
  }

  /** Pure ASCII text is always valid UTF-8. */
  lemma {:induction false} AsciiIsValid(s: Bytes)
    requires AllIn(s, IsAsciiByte)
    ensures Valid(s)
  {
    if |s| > 0 {
      assert AllIn(s[1..], IsAsciiByte);
      AsciiIsValid(s[1..]);
    }
  }

  /** A continuation byte cannot start a sequence; a lead byte cannot end one;
      the overlong two-byte form of `/` and an encoded surrogate are refused. */
  lemma RejectsMalformed()
    ensures !Valid([0x80])
    ensures !Valid([0xC3])
    ensures !Valid([0xC0, 0xAF])
    ensures !Valid([0xED, 0xA0, 0x80])
    ensures Valid([0xC3, 0xA9])
    ensures Valid([0xF0, 0x9F, 0x98, 0x80])
  {
    assert [0xC3, 0xA9][2..] == [];
    assert [0xF0, 0x9F, 0x98, 0x80][4..] == [];
  }
}

=== FILE: validators.dfy ===
/** The account and identifier validators: e-mail, username, password,
    numeric identifiers and UUID text. Each regular expression of the
    Go validators is stated as a predicate over bytes (all its classes are ASCII,
    so matching bytes is the same as matching runes) and each validator is
    proved to accept exactly what its pattern and bounds describe. */
module Validators {
  import opened Ascii
  import opened Wrappers
  import opened Decimal

  datatype ValidationError =
    | InvalidEmail
    | UsernameCharset
    | UsernameLength
    | PasswordTooShort
    | PasswordTooLong
    | PasswordWeak
    | InvalidUuid

  /** The three ways `ValidateID` refuses, each naming the field. */
  datatype IdProblem = IdEmpty | IdFormat | IdNotPositive

  datatype IdError = IdError(field: string, problem: IdProblem)

  const MinUsernameLength: int := 3
  const MaxUsernameLength: int := 30
  const MinPasswordLength: int := 8
  const MaxPasswordLength: int := 128

  // ---------------------------------------------------------------- e-mail

  /** The class `[a-zA-Z0-9._%+-]` of the local part. */
  predicate IsLocalByte(b: Byte) {
    IsLetter(b) || IsDigit(b) || b == '.' as int || b == '_' as int
    || b == '%' as int || b == '+' as int || b == '-' as int
  }

  /** The class `[a-zA-Z0-9.-]` of the domain. */
  predicate IsDomainByte(b: Byte) {
    IsLetter(b) || IsDigit(b) || b == '.' as int || b == '-' as int
  }

  /** `s` splits as local `@` domain `.` tld at the positions `at` and `dot`:
      a non-empty local part, a non-empty domain and a top-level domain of at
      least two letters. */
  predicate EmailSplit(s: Bytes, at: int, dot: int) {
    && 0 < at && at + 1 < dot && dot + 2 < |s|
    && s[at] == '@' as int && s[dot] == '.' as int
    && AllIn(s[..at], IsLocalByte)
    && AllIn(s[at + 1..dot], IsDomainByte)
    && AllIn(s[dot + 1..], IsLetter)
  }

  /** The language of `^[a-zA-Z0-9._%+-]+@[a-zA-Z0-9.-]+\.[a-zA-Z]{2,}$`. */
  ghost predicate EmailPattern(s: Bytes) {
    exists at, dot :: EmailSplit(s, at, dot)
  }

  function IndexOf(s: Bytes, b: Byte): (r: Option<nat>)
    ensures r.Some? ==> r.value < |s| && s[r.value] == b
    ensures r.Some? ==> forall k :: 0 <= k < r.value ==> s[k] != b
    ensures r.None? ==> forall k :: 0 <= k < |s| ==> s[k] != b
    decreases |s|
  {
    if |s| == 0 then None
    else if s[0] == b then Some(0)
    else match IndexOf(s[1..], b)
      case None => None
      case Some(i) => Some(i + 1)
  }

  function LastIndexOf(s: Bytes, b: Byte): (r: Option<nat>)
    ensures r.Some? ==> r.value < |s| && s[r.value] == b
    ensures r.Some? ==> forall k :: r.value < k < |s| ==> s[k] != b
    ensures r.None? ==> forall k :: 0 <= k < |s| ==> s[k] != b
    decreases |s|
  {
    if |s| == 0 then None
    else if s[|s| - 1] == b then Some(|s| - 1)
    else LastIndexOf(s[..|s| - 1], b)
  }

  /** `ValidateEmail`: the first `@` and the last `.` are the only candidate
      split points, since no class after the `@` admits another `@` and the
      top-level domain admits no `.`. */
  function ValidateEmail(s: Bytes): (r: Outcome<ValidationError>)
    ensures r.Fail? ==> r.error == InvalidEmail
  {
    match (IndexOf(s, '@' as int), LastIndexOf(s, '.' as int))
    case (Some(at), Some(dot)) =>
      if EmailSplit(s, at, dot) then Pass else Fail(InvalidEmail)
    case _ => Fail(InvalidEmail)
  }

  /** The e-mail validator accepts exactly the language of its pattern. */
  lemma ValidateEmailMatchesPattern(s: Bytes)
    ensures ValidateEmail(s).Pass? <==> EmailPattern(s)
  {
    if EmailPattern(s) {
      var at, dot :| EmailSplit(s, at, dot);
      assert forall k :: 0 <= k < at ==> s[k] == s[..at][k];
      assert forall k :: dot < k < |s| ==> s[k] == s[dot + 1..][k - dot - 1];
      assert IndexOf(s, '@' as int) == Some(at);
      assert LastIndexOf(s, '.' as int) == Some(dot);
    }
  }

  /** An accepted address holds exactly one `@`. */
  lemma AcceptedEmailHasOneAt(s: Bytes)
    requires ValidateEmail(s).Pass?
    ensures exists at :: 0 <= at < |s| && s[at] == '@' as int
    ensures forall a, b :: 0 <= a < |s| && 0 <= b < |s| && s[a] == '@' as int && s[b] == '@' as int ==> a == b
  {
    var at, dot :| IndexOf(s, '@' as int) == Some(at) && LastIndexOf(s, '.' as int) == Some(dot);
    assert EmailSplit(s, at, dot);
  }

  // -------------------------------------------------------------- username

  /** The class `[a-zA-Z0-9_-]`. */
  predicate IsUsernameByte(b: Byte) {
    IsLetter(b) || IsDigit(b) || b == '_' as int || b == '-' as int
  }

  /** The language of `^[a-zA-Z0-9_-]+$`. */
  predicate UsernamePattern(s: Bytes) {
    |s| >= 1 && AllIn(s, IsUsernameByte)
  }

  /** `ValidateUsername`: the pattern is checked before the length bounds, so
      the empty name is refused for its characters, not its length. */
  method ValidateUsername(name: Bytes) returns (r: Outcome<ValidationError>)
    ensures r.Pass? <==> UsernamePattern(name) && MinUsernameLength <= |name| <= MaxUsernameLength
    ensures r == Fail(UsernameCharset) <==> !UsernamePattern(name)
    ensures r == Fail(UsernameLength) <==>
              UsernamePattern(name) && !(MinUsernameLength <= |name| <= MaxUsernameLength)
  {
    var matched := |name| > 0;
    var i := 0;
    while i < |name|
      invariant 0 <= i <= |name|
      invariant matched <==> |name| > 0 && AllIn(name[..i], IsUsernameByte)
    {
      if !IsUsernameByte(name[i]) {
        matched := false;
      }
      assert name[..i + 1] == name[..i] + [name[i]];
      i := i + 1;
    }
    assert name[..i] == name;
    if !matched {
      return Fail(UsernameCharset);
    }
    if |name| < MinUsernameLength || |name| > MaxUsernameLength {
      return Fail(UsernameLength);
    }
    return Pass;
  }

  // -------------------------------------------------------------- password

  /** `ValidatePassword`: 8 to 128 bytes, both bounds inclusive, with at least
      one ASCII letter and one ASCII digit anywhere. */
  method ValidatePassword(password: Bytes) returns (r: Outcome<ValidationError>)
    ensures r == Fail(PasswordTooShort) <==> |password| < MinPasswordLength
    ensures r == Fail(PasswordTooLong) <==> |password| > MaxPasswordLength
    ensures r == Fail(PasswordWeak) <==>
              MinPasswordLength <= |password| <= MaxPasswordLength
              && !(AnyIn(password, IsLetter) && AnyIn(password, IsDigit))
    ensures r.Pass? <==>
              MinPasswordLength <= |password| <= MaxPasswordLength
              && AnyIn(password, IsLetter) && AnyIn(password, IsDigit)
  {
    if |password| < MinPasswordLength {
      return Fail(PasswordTooShort);
    }
    if |password| > MaxPasswordLength {
      return Fail(PasswordTooLong);
    }
    var hasLetter, hasNumber := false, false;
    var i := 0;
    while i < |password|
      invariant 0 <= i <= |password|
      invariant hasLetter <==> AnyIn(password[..i], IsLetter)
      invariant hasNumber <==> AnyIn(password[..i], IsDigit)
    {
      assert password[..i + 1] == password[..i] + [password[i]];
      if IsLetter(password[i]) {
        hasLetter := true;
      }
      if IsDigit(password[i]) {
        hasNumber := true;
      }
      i := i + 1;
    }
    assert password[..i] == password;
    if !hasLetter || !hasNumber {
      return Fail(PasswordWeak);
    }
    return Pass;
  }

  // ------------------------------------------------------------ identifier

  /** `ValidateID`: a non-empty decimal that `strconv.Atoi` accepts and that
      is strictly positive. */
  function ValidateId(idStr: Bytes, field: string): (r: Result<int, IdError>)
    ensures r.Err? ==> r.error.field == field
    ensures r.Err? && r.error.problem == IdEmpty <==> |idStr| == 0
    ensures r.Err? && r.error.problem == IdFormat <==> |idStr| > 0 && Atoi(idStr).None?
    ensures r.Err? && r.error.problem == IdNotPositive <==> Atoi(idStr).Some? && Atoi(idStr).value <= 0
    ensures r.Ok? ==> Atoi(idStr) == Some(r.value) && 0 < r.value <= MaxInt64
  {
    if |idStr| == 0 then Err(IdError(field, IdEmpty))
    else match Atoi(idStr)
      case None => Err(IdError(field, IdFormat))
      case Some(id) => if id <= 0 then Err(IdError(field, IdNotPositive)) else Ok(id)
  }

  /** Every positive 64-bit identifier, written in decimal, is accepted as itself. */
  lemma ValidateIdFormat(n: int, field: string)
    requires 0 < n <= MaxInt64
    ensures ValidateId(Format(n), field) == Ok(n)
  {
    AtoiFormat(n);
  }

  /** Zero and negative numbers are well-formed but refused. */
  lemma ValidateIdRefusesNonPositive(n: int, field: string)
    requires MinInt64 <= n <= 0
    ensures ValidateId(Format(n), field) == Err(IdError(field, IdNotPositive))
  {
    AtoiFormat(n);
  }

  // ------------------------------------------------------------------ UUID

  /** The class `[0-9a-f]{n}`. */
  predicate HexGroup(g: Bytes, n: nat) {
    |g| == n && AllIn(g, IsLowerHex)
  }

  /** The language of
      `^[0-9a-f]{8}-[0-9a-f]{4}-[0-9a-f]{4}-[0-9a-f]{4}-[0-9a-f]{12}$`: the
      8-4-4-4-12 layout of section 4 of RFC 9562, lower case only. */
  predicate UuidPattern(s: Bytes) {
    && |s| == 36
    && HexGroup(s[0..8], 8) && s[8] == '-' as int
    && HexGroup(s[9..13], 4) && s[13] == '-' as int
    && HexGroup(s[14..18], 4) && s[18] == '-' as int
    && HexGroup(s[19..23], 4) && s[23] == '-' as int
    && HexGroup(s[24..36], 12)
  }

  predicate IsDashPosition(i: int) { i == 8 || i == 13 || i == 18 || i == 23 }

  /** What the layout demands of the byte at position `i`. */
  predicate UuidByteOk(s: Bytes, i: int)
    requires 0 <= i < |s|
  {
    if IsDashPosition(i) then s[i] == '-' as int else IsLowerHex(s[i])
  }

  /** Positions `lo` to `hi` of `s` form a hex group. */
  predicate HexRun(s: Bytes, lo: int, hi: int)
    requires 0 <= lo <= hi <= |s|
  {
    HexGroup(s[lo..hi], hi - lo)
  }

  lemma HexRunByPosition(s: Bytes, lo: int, hi: int)
    requires 0 <= lo <= hi <= |s|
    requires forall i :: lo <= i < hi ==> IsLowerHex(s[i])
    ensures HexRun(s, lo, hi)
  {
    assert forall i :: 0 <= i < hi - lo ==> s[lo..hi][i] == s[lo + i];
  }

  lemma UuidPatternByPosition(s: Bytes)
    requires |s| == 36
    ensures UuidPattern(s) <==> forall i :: 0 <= i < 36 ==> UuidByteOk(s, i)
  {
    if forall i :: 0 <= i < 36 ==> UuidByteOk(s, i) {
      forall i | 0 <= i < 36 && !IsDashPosition(i) ensures IsLowerHex(s[i]) {
        assert UuidByteOk(s, i);
      }
      HexRunByPosition(s, 0, 8);
      HexRunByPosition(s, 9, 13);
      HexRunByPosition(s, 14, 18);
      HexRunByPosition(s, 19, 23);
      HexRunByPosition(s, 24, 36);
      assert UuidByteOk(s, 8) && UuidByteOk(s, 13) && UuidByteOk(s, 18) && UuidByteOk(s, 23);
    } else if UuidPattern(s) {
      forall i | 0 <= i < 36 ensures UuidByteOk(s, i) {
        if i < 8 { assert s[0..8][i] == s[i]; }
        else if 8 < i < 13 { assert s[9..13][i - 9] == s[i]; }
        else if 13 < i < 18 { assert s[14..18][i - 14] == s[i]; }
        else if 18 < i < 23 { assert s[19..23][i - 19] == s[i]; }
        else if 23 < i { assert s[24..36][i - 24] == s[i]; }
      }
    }
  }

  /** `ValidateUUID`: one scan over the 36 positions. */
  method ValidateUuid(s: Bytes) returns (r: Outcome<ValidationError>)
    ensures r.Pass? <==> UuidPattern(s)
    ensures r.Fail? ==> r.error == InvalidUuid
  {
    if |s| != 36 {
      return Fail(InvalidUuid);
    }
    var i := 0;
    while i < 36
      invariant 0 <= i <= 36
      invariant forall j :: 0 <= j < i ==> UuidByteOk(s, j)
    {
      if !UuidByteOk(s, i) {
        UuidPatternByPosition(s);
        return Fail(InvalidUuid);
      }
      i := i + 1;
    }
    UuidPatternByPosition(s);
    return Pass;
  }

  /** Upper-case hexadecimal digits are refused. */
  lemma UuidRefusesUpperCase(s: Bytes, i: int)
    requires 0 <= i < |s| && IsUpper(s[i])
    ensures !UuidPattern(s)
  {
    if |s| == 36 {
      UuidPatternByPosition(s);
    }
  }

  /** Neither the version nibble (position 14) nor the variant nibble
      (position 19) is inspected: any lower-case hex digit is accepted there. */
  lemma UuidIgnoresVersionAndVariant(s: Bytes, version: Byte, variant: Byte)
    requires UuidPattern(s) && IsLowerHex(version) && IsLowerHex(variant)
    ensures UuidPattern(s[14 := version][19 := variant])
  {
    var t := s[14 := version][19 := variant];
    UuidPatternByPosition(s);
    assert forall i :: 0 <= i < 36 ==> UuidByteOk(t, i) by {
      forall i | 0 <= i < 36 ensures UuidByteOk(t, i) {
        assert UuidByteOk(s, i);
      }
    }
    UuidPatternByPosition(t);
  }
}

=== FILE: wrappers.dfy ===
/** Failure-carrying result types shared by every module of the model.
    Go functions that return `(T, error)` become `Result`, those that
    return a bare `error` become `Outcome`. */
module Wrappers {

  datatype Option<+T> = None | Some(value: T)

  datatype Result<+T, +E> = Ok(value: T) | Err(error: E)

  datatype Outcome<+E> = Pass | Fail(error: E)
}
